=== FILE: README.md ===
# Trustbot Alpha, modelled in Dafny

Trustbot Alpha is a static, in-browser trust-document drafter. A fixed
schema lists two trust types, "revocable" and "private_common_law", each
with its input fields. The page works in four steps:

1. It renders a form control for every field of the selected type,
   pre-filled with the field's default.
2. It collects the entered values into answers keyed by field name.
3. It fingerprints the selected type id together with the answers (SHA-256 over
   their JSON), written in lowercase hex.
4. It renders an HTML draft with the type's template.

Every draft is stamped with an identifier fixed when the page loads (the
prefix and that moment's New York date), the owner, a
confidentiality banner, the disclaimer, the fingerprint and a timestamp. A
small welcome wizard remembers the visitor's name and state and recommends
a strategy.

The model is a set of pure functions with contracts, one module per concern:

- `Wrappers`: `Option`.
- `Text`:
  - string containment and prefix facts;
  - concatenation of pieces and lines;
  - JavaScript's `padStart` and `trim`.
- `Hex`: `toString(16).padStart(2, "0")` per byte, the join, and the inverse decoder.
- `Schema`: the schema literal, and `find` over the types.
- `Fields`:
  - `renderFields` as a list of controls, plus the markup of each control;
  - the `answers[el.name] = el.value` collection.
- `Templates`:
  - the two templates as sequences of lines (fixed markup, interpolated slots, answer entries);
  - the HTML they join to.
- `Identifier`: the `PREFIX-YYYY-MM-DD` identifier, and a parser that reads the date back.
- `Generate`: the Generate handler. It builds the stamp, dispatches on the type's template, and produces the fragment.
- `Evolution`: `startWizard` and `suggestEvolution` over a key/value store.

A draft's content is stated semantically:

- `RevocableContent` and `CommonLawContent` say which `(caption, value)` answer lines a document holds.
- `Stamped` says where the metadata lines sit.
- The `...InMarkup` lemmas carry those facts to the final HTML string.

Behaviours worth noting, each modelled as the code has it:

- **Template dispatch.** Any `template` other than `"revocable"` renders the common-law template. There is no "unknown template" error.
- **Unknown type id.** The click handler and `renderFields` dereference an `undefined` type. The model returns `None`.
- **No HTML escaping.** Answers are interpolated verbatim, so nothing is claimed about escaping.
- **Field types.** A field's type stays a free string (`Option<string>`), compared with `"textarea"` and defaulted with `|| "text"`, as the code does.
- **Optional yet always printed.** The common-law jurisdiction field is optional, but its answer line is always emitted (empty when unanswered); only the mailing address line is conditional.

## Model

| member | source | states |
|---|---|---|
| Text.PadStart | trustbot.js:142 | a string at least `width` long is returned unchanged; a shorter one is padded to exactly `width`; it ends with the original, and every added character is the fill |
| Text.Trim | evolution.js:3-4 | the result is a slice of the input with only white space cut from both ends, neither end is white space, and it is empty exactly when the input is all white space |
| Text.JoinLinesContains | trustbot.js:72-103 | every line of a template occurs verbatim in the joined text |
| Text.ConcatContainsPiece | trustbot.js:199-207 | every piece of a control's markup occurs verbatim in the concatenation |
| Text.ConcatContainsPair | trustbot.js:199-207 | two neighbouring pieces of a control's markup occur together, in order, in the concatenation |
| Hex.Digit | trustbot.js:142 | the digit `toString(16)` writes is in `0-9a-f` |
| Hex.DigitRoundTrip | trustbot.js:142 | reading a hex digit back gives its value |
| Hex.ToRadix16 | trustbot.js:142 | `n.toString(16)` is lowercase hex, denotes `n`, has one digit below 16 and two below 256 |
| Hex.ByteHex | trustbot.js:142 | each byte becomes exactly two lowercase hex digits whose value is the byte |
| Hex.Encode | trustbot.js:142 | the hex string is twice the digest's length, lowercase, with byte `i` at positions `2i` and `2i+1` |
| Hex.DecodeEncode | trustbot.js:142 | decoding the fingerprint gives back the digest bytes |
| Hex.EncodeInjective | trustbot.js:142 | distinct digests give distinct fingerprints |
| Hex.DigestHexLength | trustbot.js:139-143 | a 32-byte SHA-256 digest becomes 64 lowercase hex characters |
| Schema.Find | trustbot.js:195 | `find` gives `None` exactly when no type has the id, else the first type with that id |
| Schema.FieldsFor | trustbot.js:195-197 | the fields of the first type with the id, `None` exactly when there is none |
| Schema.SchemaIdsDistinct | trustbot.js:35-69 | type ids are distinct, and field ids are distinct within each type |
| Schema.FindInSchema | trustbot.js:35-69 | `"revocable"` and `"private_common_law"` find their types; every other id finds nothing |
| Fields.RenderFields | trustbot.js:197-209 | one control per field, in order: named by the field id; value is the default or empty; `required` and the ` *` label mark follow `required`; a textarea exactly for type `"textarea"`, else an input of type `f.type` or `"text"` |
| Fields.RenderFieldsFor | trustbot.js:194-209 | the controls for the fields of the first type with the selected id, `None` exactly when the schema has no such type |
| Fields.FieldMarkup | trustbot.js:199-207 | the markup opens with the label and caption, carries `name="id"` and the default as the textarea's content or the input's `value`; the attribute slot before `placeholder` holds `required` for a required field and is empty for an optional one; the ` *` mark follows `required` |
| Fields.CollectAnswers | trustbot.js:219-220 | the answers' keys are the controls' names, and each name maps to the value of the last control carrying it |
| Fields.CollectStep | trustbot.js:220 | writing one more control's value keeps the collection invariant |
| Fields.AnswersKeyedByFieldIds | trustbot.js:197-220 | with distinct field ids, the collected answers are keyed by exactly the field ids, each mapped to its own control's value |
| Fields.JurisdictionDefault | trustbot.js:65 | the common-law form's jurisdiction control is an optional textarea pre-filled with the default jurisdiction text |
| Templates.Document | trustbot.js:72-103 | a document is stamped; its sixth line is the centred `<h2>` title carrying the given title; the answers box sits right after the eight opening lines and is closed by `</div>`, the article follows it, and the six stamp lines end the document; it holds the body's and the article's entries and no others |
| Templates.Markup | trustbot.js:72-136 | the HTML is empty only for a document without lines, and opens with the first line's markup |
| Templates.LinesInMarkup | trustbot.js:72-136 | every line's markup occurs verbatim in the HTML |
| Templates.Entries | trustbot.js:84-90 | the answers box holds only entries, at most one line per row; each entry comes from a row that shows it, and every row that shows a value has its entry |
| Templates.EntriesOfRow | trustbot.js:84-90 | with one row per caption, the entries under a row's caption are exactly what that row shows |
| Templates.EntriesInRowOrder | trustbot.js:84-90 | with one row per caption, the answers box writes each caption at most once, each a row's, in the rows' order |
| Templates.TemplateBoxesInRowOrder | trustbot.js:84-90 | both templates write their answer lines once each, in schema row order |
| Templates.EntriesReadOnlyKeys | trustbot.js:84-90 | the answers box depends only on the answers of its rows' keys |
| Templates.RevocableEntry | trustbot.js:84-90 | a revocable entry `(c, v)` is present exactly when the template text shows `v` under `c` |
| Templates.Revocable | trustbot.js:72-103 | the revocable draft is stamped and titled "Revocable Living Trust (Draft)"; its answers box, in row order, holds exactly these entries: grantor, trustee, beneficiary and date always (empty when missing), governing law falling back to "Common Law", the successor lines only when answered; the Article I Declaration heading and paragraph follow the box |
| Templates.CommonLawEntry | trustbot.js:117-123 | a common-law entry `(c, v)` is present exactly when the template text shows `v` under `c` |
| Templates.CommonLaw | trustbot.js:105-136 | the common-law draft is stamped and titled "Private Trust (Common Law) — Draft"; its answers box, in row order, holds exactly its template's entries (mailing address only when answered); the governance heading and the fixed jurisdiction clause follow the box |
| Templates.TemplatesFollowSchema | trustbot.js:41-65 | each template's answer lines read its type's field ids in schema order; the governing-law fallback is that field's default |
| Templates.SlotInMarkup | trustbot.js:72-136 | every interpolated value occurs verbatim in the HTML, right after its opening markup |
| Templates.EntryInMarkup | trustbot.js:84-90 | an entry's whole paragraph, and so its answer, occurs verbatim in the HTML |
| Templates.StampedMarkup | trustbot.js:74-101 | a stamped draft's HTML carries the identifier (after "Identifier:" and after "Stamp:"), owner, banner, disclaimer, fingerprint and timestamp |
| Templates.HeaderInMarkup | trustbot.js:74-81 | the header's identifier (after "Identifier:"), owner and banner and the title's disclaimer occur verbatim in the HTML |
| Templates.StampInMarkup | trustbot.js:96-101 | the closing stamp's timestamp, fingerprint and identifier (after "Stamp:") occur verbatim in the HTML |
| Templates.CommonLawGovernanceText | trustbot.js:126-127 | the common-law HTML carries the default jurisdiction text, whatever the answers say |
| Templates.RevocableReadsOnlyItsFields | trustbot.js:72-103 | answers that agree on the revocable type's fields render the same revocable draft |
| Templates.CommonLawReadsOnlyItsFields | trustbot.js:105-136 | answers that agree on the common-law type's fields render the same common-law draft |
| Identifier.Decimal | trustbot.js:11 | the `numeric` year is decimal digits denoting the number, with no leading zero except for zero itself; one to four digits for numbers below 10, 100, 1000 and 10000 |
| Identifier.TwoDigits | trustbot.js:11 | a `2-digit` part is exactly two digits denoting the number |
| Identifier.TwoDigitsShape | trustbot.js:11 | a number below 100, padded to two digits, is its tens digit followed by its units digit (a leading zero below 10) |
| Identifier.DateStamp | trustbot.js:8-18 | `y-m-d`: the year's digits, a hyphen, two digits, a hyphen, two digits, ten characters for a four-digit year, and the stamp parses back to the date |
| Identifier.ParseDateStamp | trustbot.js:18 | reading a stamp back yields only valid dates |
| Identifier.MakeIdentifier | trustbot.js:23 | the identifier opens with the prefix and a hyphen, and what follows parses back to the date |
| Identifier.TrustbotIdentifier | trustbot.js:22-23 | the load-time identifier opens with `DRR-TRUSTBOT-ALPHA-CEC1-SENTINEL-FCPS1.0-`, is 51 characters for a four-digit year, and names the load date |
| Identifier.IdentifierDeterminesDate | trustbot.js:22-23 | under one prefix, two different days never share an identifier |
| Identifier.TrustbotIdentifierExample | trustbot.js:22-23 | the fourth of March 2024 gives `DRR-TRUSTBOT-ALPHA-CEC1-SENTINEL-FCPS1.0-2024-03-04` |
| Identifier.StampExample | trustbot.js:8-18 | the fourth of March 2024 is written `2024-03-04` |
| Generate.DraftMeta | trustbot.js:222-231 | the stamp carries the identifier, owner, banner and schema disclaimer, and a fingerprint of twice the digest's length, lowercase hex, which decodes back to the digest |
| Generate.Render | trustbot.js:234-236 | template `"revocable"` gives a revocable draft; every other template a common-law draft; both stamped |
| Generate.Generate | trustbot.js:233-236 | `None` exactly when no type has the selected id; otherwise the render of the first type with that id |
| Generate.GenerateFound | trustbot.js:233-236 | whatever type the lookup finds is the one rendered |
| Generate.TrustbotDispatch | trustbot.js:233-236 | in the shipped schema, the two ids render their two templates, and any other id renders nothing |
| Generate.Draft | trustbot.js:219-238 | the fragment exists exactly for the two type ids, and it is the selected template's rendering of the answers: the revocable template for `revocable`, the common-law template for `private_common_law`; it carries the load-time identifier (after "Identifier:" and after "Stamp:"), owner, banner, disclaimer, digest hex and timestamp |
| Generate.CommonLawDraftGovernance | trustbot.js:126-127 | the common-law fragment always carries the default jurisdiction text |
| Evolution.Remember | evolution.js:3-6 | a non-blank input is stored trimmed under its key; a blank one leaves the key as it was; no other key changes |
| Evolution.RememberIdempotent | evolution.js:5-6 | remembering the same input twice is remembering it once |
| Evolution.Choose | evolution.js:16-22 | Florida advice exactly when the state is `"Florida"`; tailored advice carrying the state exactly when the state is some other non-empty value; general advice exactly when there is no state |
| Evolution.AdviceText | evolution.js:17-21 | the tailored text contains the state |
| Evolution.AdviceTextInjective | evolution.js:17-21 | different advice reads differently, so the text tells the branch and the state |
| Evolution.Suggest | evolution.js:11-22 | the message is exactly the greeting for the stored name (or `Guest` when none is stored) followed by one advice: the Florida module advice for `"Florida"`, the tailored advice naming any other stored state (which it contains), or the general advice when no state is stored |
| Evolution.StartWizard | evolution.js:2-9 | a non-blank name or state input is stored trimmed under its key, a blank one leaves that key as it was, independently of the other input; other keys are untouched; the message is the suggestion for the updated store |
| Evolution.FloridaInput | evolution.js:4-6 | a state input that trims to `Florida` brings the foreclosure surplus advice |
| Evolution.OtherStateInput | evolution.js:4-6 | any other non-blank state input is tailored advice for the trimmed state, which the message contains |
| Evolution.BlankInputs | evolution.js:3-8 | blank inputs leave the store unchanged, and the message is the one the stored values give |
| Evolution.NameInput | evolution.js:3-5 | a non-blank name input, trimmed, is the name the greeting uses |

## Left out

- SHA-256, `TextEncoder` and `JSON.stringify`. The payload (the selected type id and the answers) and its digest are not modelled: the digest comes in as bytes, and only its hex rendering is modelled.
- `Intl.DateTimeFormat` and the America/New_York conversion. The date the script loaded on comes in as a `Date`, and only its `en-CA` rendering is modelled; the identifier is computed from it once, so a page kept open past midnight keeps stamping the load date.
- Dates themselves: `ValidDate` bounds the day by 31 only; month lengths are not modelled.
- The timestamp from `new Date().toISOString()` comes in as a string.
- `printDraft`: opening a window, the print page wrapper and `window.print` are browser I/O.
- DOM wiring is browser I/O:
  - element lookups;
  - filling the type selector;
  - the change and click listeners;
  - `innerHTML` and `hidden`;
  - the PDF button;
  - `localStorage` (modelled as a map).
- The `await` of `crypto.subtle.digest` is not modelled. Everything is sequential.
- Template whitespace and indentation: the template literals' blank lines and indentation are dropped. Each template line is one `Line`, and the lines are joined with newlines.
- HTML escaping: none is done by the code, and none is claimed.
- `trim`'s white-space set is the ASCII set, the no-break space and the byte-order mark. The other Unicode space separators and line terminators are not modelled.
- Fields.FieldMarkup: the placeholder attribute is carried in the control, but the markup contract says nothing about it (the schema defines no placeholder).
- Fields.CollectAnswers: `querySelectorAll` is taken to return the rendered controls in page order. The values typed into them come in as a sequence.
- The `select` elements the collector also reads are not modelled, since the renderer never creates one.

=== FILE: evolution.dfy ===
/** The welcome wizard: it remembers the visitor's name and state in a
    two-key store (browser local storage), then greets the visitor and
    recommends one of three strategies according to the stored state. */
module Evolution {
  import opened Text

  /** Local storage: string keys to string values; a missing key reads as null. */
  type Store = map<string, string>

  const NameKey: string := "trustbot_userName"
  const StateKey: string := "trustbot_userState"

  /** A stored value is truthy when it is there and not empty. */
  predicate Stored(store: Store, key: string) {
    key in store && store[key] != ""
  }

  /** `if (v) localStorage.setItem(key, v)` for `v` the trimmed input: the
      key is written only when the input is not all white space; every other
      key, and a key whose input is blank, keeps its previous value. */
  function Remember(store: Store, key: string, input: string): (r: Store)
    ensures forall k :: k != key ==> (k in r <==> k in store) && (k in r ==> r[k] == store[k])
    ensures !AllSpace(input) ==> key in r && r[key] == Trim(input) && Stored(r, key)
    ensures AllSpace(input) ==> (key in r <==> key in store) && (key in r ==> r[key] == store[key])
  {
    var v := Trim(input);
    if v != "" then store[key := v] else store
  }

  /** Remembering the same input twice is remembering it once. */
  lemma RememberIdempotent(store: Store, key: string, input: string)
    ensures Remember(Remember(store, key, input), key, input) == Remember(store, key, input)
  {
  }

  /** The three recommendations. */
  datatype Advice = ForeclosureSurplus | Tailored(state: string) | General

  /** The branch `suggestEvolution` takes on the stored state: exactly
      `"Florida"`, any other non-empty state, or none at all. */
  function Choose(store: Store): (r: Advice)
    ensures r == ForeclosureSurplus <==> StateKey in store && store[StateKey] == "Florida"
    ensures r.Tailored? <==> Stored(store, StateKey) && store[StateKey] != "Florida"
    ensures r.Tailored? ==> r.state == store[StateKey]
    ensures r == General <==> !Stored(store, StateKey)
  {
    if StateKey in store && store[StateKey] == "Florida" then ForeclosureSurplus
    else if Stored(store, StateKey) then Tailored(store[StateKey])
    else General
  }

  const ForeclosureText: string :=
    "We see you're in Florida. You may benefit from our <em>Foreclosure Surplus Recovery</em> module."
  const TailoredOpen: string := "We can tailor a trust strategy based on "
  const TailoredClose: string := " laws."
  const GeneralText: string := "Start building your trust with our general strategy assistant."

  function AdviceText(advice: Advice): (r: string)
    ensures advice.Tailored? ==> Contains(r, advice.state)
  {
    match advice
    case ForeclosureSurplus => ForeclosureText
    case Tailored(state) =>
      ContainsInfix(TailoredOpen, state, TailoredClose);
      TailoredOpen + state + TailoredClose
    case General => GeneralText
  }

  /** Different recommendations read differently, so the text tells which
      branch was taken (and, for a tailored one, which state). */
  lemma AdviceTextInjective(x: Advice, y: Advice)
    requires AdviceText(x) == AdviceText(y)
    ensures x == y
  {
    var s := AdviceText(x);
    if x.Tailored? && y.Tailored? {
      assert x.state == s[|TailoredOpen|..|s| - |TailoredClose|];
      assert y.state == s[|TailoredOpen|..|s| - |TailoredClose|];
    } else {
      // The next-to-last character tells the three texts apart.
      AdviceMark(x);
      AdviceMark(y);
    }
  }

  lemma AdviceMark(advice: Advice)
    ensures |AdviceText(advice)| > 1
    ensures AdviceText(advice)[|AdviceText(advice)| - 2] == match advice
      case ForeclosureSurplus => 'e'
      case Tailored(_) => 's'
      case General => 't'
  {
    match advice
    case ForeclosureSurplus => assert ForeclosureText[|ForeclosureText| - 2] == 'e';
    case Tailored(_) =>
      var r := AdviceText(advice);
      assert r[|r| - 2] == TailoredClose[4] == 's';
    case General => assert GeneralText[|GeneralText| - 2] == 't';
  }

  /** The stored name, or `"Guest"` when there is none. */
  function GreetingName(store: Store): (r: string)
    ensures Stored(store, NameKey) ==> r == store[NameKey]
    ensures !Stored(store, NameKey) ==> r == "Guest"
  {
    if Stored(store, NameKey) then store[NameKey] else "Guest"
  }

  const GreetingOpen: string := "<strong>Hello "
  const GreetingClose: string := "</strong><br>"

  /** `suggestEvolution`: the greeting with the stored name (or `Guest`), then
      the one recommendation the stored state calls for. */
  function Suggest(store: Store): (msg: string)
    ensures Stored(store, NameKey) ==> StartsWith(msg, GreetingOpen + store[NameKey] + GreetingClose)
    ensures !Stored(store, NameKey) ==> StartsWith(msg, GreetingOpen + "Guest" + GreetingClose)
    ensures StateKey in store && store[StateKey] == "Florida" ==> EndsWith(msg, ForeclosureText)
    ensures Stored(store, StateKey) && store[StateKey] != "Florida" ==>
      EndsWith(msg, TailoredOpen + store[StateKey] + TailoredClose) && Contains(msg, store[StateKey])
    ensures !Stored(store, StateKey) ==> EndsWith(msg, GeneralText)
    ensures |msg| == |GreetingOpen + GreetingName(store) + GreetingClose| + |AdviceText(Choose(store))|
  {
    var greeting, advice := GreetingOpen + GreetingName(store) + GreetingClose, AdviceText(Choose(store));
    StartsWithConcat(greeting, advice);
    assert (greeting + advice)[|greeting + advice| - |advice|..] == advice;
    if Choose(store).Tailored? then
      ContainsWithin(greeting, advice, "", store[StateKey]);
      assert greeting + advice + "" == greeting + advice;
      greeting + advice
    else
      greeting + advice
  }

  /** `startWizard`: remember the name, then the state, then suggest. */
  function StartWizard(store: Store, nameInput: string, stateInput: string): (r: (Store, string))
    ensures r.1 == Suggest(r.0)
    ensures !AllSpace(nameInput) ==> NameKey in r.0 && r.0[NameKey] == Trim(nameInput)
    ensures AllSpace(nameInput) ==>
      (NameKey in r.0 <==> NameKey in store) && (NameKey in r.0 ==> r.0[NameKey] == store[NameKey])
    ensures !AllSpace(stateInput) ==> StateKey in r.0 && r.0[StateKey] == Trim(stateInput)
    ensures AllSpace(stateInput) ==>
      (StateKey in r.0 <==> StateKey in store) && (StateKey in r.0 ==> r.0[StateKey] == store[StateKey])
    ensures forall k :: k != NameKey && k != StateKey ==> (k in r.0 <==> k in store) && (k in r.0 ==> r.0[k] == store[k])
  {
    var stored := Remember(Remember(store, NameKey, nameInput), StateKey, stateInput);
    (stored, Suggest(stored))
  }

  /** A state typed as `Florida`, white space aside, brings the foreclosure
      surplus module. */
  lemma FloridaInput(store: Store, nameInput: string, stateInput: string)
    requires Trim(stateInput) == "Florida"
    ensures Choose(StartWizard(store, nameInput, stateInput).0) == ForeclosureSurplus
  {
    assert !AllSpace(stateInput);
  }

  /** Any other non-blank state is echoed back in a tailored recommendation. */
  lemma OtherStateInput(store: Store, nameInput: string, stateInput: string)
    requires !AllSpace(stateInput) && Trim(stateInput) != "Florida"
    ensures Choose(StartWizard(store, nameInput, stateInput).0) == Tailored(Trim(stateInput))
    ensures Contains(StartWizard(store, nameInput, stateInput).1, Trim(stateInput))
  {
  }

  /** Blank inputs change nothing: the store is as it was and the message is
      the one the stored values already give. */
  lemma BlankInputs(store: Store, nameInput: string, stateInput: string)
    requires AllSpace(nameInput) && AllSpace(stateInput)
    ensures StartWizard(store, nameInput, stateInput) == (store, Suggest(store))
  {
  }

  /** A non-blank name input is the name the greeting uses. */
  lemma NameInput(store: Store, nameInput: string, stateInput: string)
    requires !AllSpace(nameInput)
    ensures GreetingName(StartWizard(store, nameInput, stateInput).0) == Trim(nameInput)
  {
  }
}

=== FILE: fields.dfy ===
/** The field renderer: one form control per schema field, in schema order,
    pre-filled with the field's default; and the collection of the entered
    values back into an answer set keyed by field id. */
module Fields {
  import opened Wrappers
  import opened Text
  import opened Schema

  datatype Element = TextArea | Input(inputType: string)

  /** What the renderer puts on the page for one field: the label text, the
      control's `name`, kind, `required` attribute, initial value and
      placeholder. */
  datatype Control = Control(
    labelText: string,
    name: string,
    element: Element,
    required: bool,
    value: string,
    placeholder: string)

  /** The initial value: the default when the field defines one, else empty. */
  function InitialValue(f: FieldSpec): string {
    f.defaultValue.GetOr("")
  }

  /** `f.type || "text"`: an absent or empty type reads as a text box. */
  function InputType(f: FieldSpec): string {
    if f.kind.Some? && f.kind.value != "" then f.kind.value else "text"
  }

  predicate IsTextArea(f: FieldSpec) {
    f.kind == Some("textarea")
  }

  function RenderField(f: FieldSpec): Control {
    Control(
      f.caption + (if f.required then " *" else ""),
      f.id,
      if IsTextArea(f) then TextArea else Input(InputType(f)),
      f.required,
      InitialValue(f),
      f.placeholder.GetOr(""))
  }

  /** The controls for a list of fields: exactly one per field, in the same
      order, each named after its field. */
  function RenderFields(fields: seq<FieldSpec>): (cs: seq<Control>)
    ensures |cs| == |fields|
    ensures forall i :: 0 <= i < |fields| ==> cs[i].name == fields[i].id
    ensures forall i :: 0 <= i < |fields| ==>
      cs[i].value == (if fields[i].defaultValue.Some? then fields[i].defaultValue.value else "")
    ensures forall i :: 0 <= i < |fields| ==>
      cs[i].required == fields[i].required
      && cs[i].labelText == fields[i].caption + (if fields[i].required then " *" else "")
    ensures forall i :: 0 <= i < |fields| ==> (cs[i].element.TextArea? <==> fields[i].kind == Some("textarea"))
    ensures forall i :: 0 <= i < |fields| && cs[i].element.Input? ==>
      cs[i].element.inputType == (if fields[i].kind.Some? && fields[i].kind.value != "" then fields[i].kind.value else "text")
  {
    if |fields| == 0 then [] else
      var rest := RenderFields(fields[1..]);
      var cs := [RenderField(fields[0])] + rest;
      assert forall i :: 1 <= i < |fields| ==> cs[i] == rest[i - 1] && fields[i] == fields[1..][i - 1];
      cs
  }

  /** The controls for the type the selector names; `None` where the source
      throws because no type has that id. */
  function RenderFieldsFor(schema: SchemaSpec, typeId: string): (r: Option<seq<Control>>)
    ensures r.None? <==> forall i :: 0 <= i < |schema.trustTypes| ==> schema.trustTypes[i].id != typeId
    ensures r.Some? ==> exists i :: 0 <= i < |schema.trustTypes| && schema.trustTypes[i].id == typeId
                                     && (forall j :: 0 <= j < i ==> schema.trustTypes[j].id != typeId)
                                     && r.value == RenderFields(schema.trustTypes[i].fields)
  {
    match FieldsFor(schema, typeId)
    case None => None
    case Some(fields) => Some(RenderFields(fields))
  }

  // ---------------------------------------------------------------------------
  // Markup of one control
  // ---------------------------------------------------------------------------

  function RequiredAttr(required: bool): string {
    if required then "required" else ""
  }

  /** The markup of one control, piece by piece: the label, then the textarea
      or input element with its attributes in the order the source writes them. */
  function ControlPieces(c: Control): seq<string> {
    ["<label>" + c.labelText + "</label>"] +
    match c.element
    case TextArea =>
      ["<textarea ", "name=\"" + c.name + "\"", " " + RequiredAttr(c.required) + " placeholder=\"" + c.placeholder,
       "\">" + c.value + "</textarea>"]
    case Input(t) =>
      ["<input type=\"" + t + "\"", " ", "name=\"" + c.name + "\"", " ", "value=\"" + c.value + "\"",
       " " + RequiredAttr(c.required) + " placeholder=\"" + c.placeholder + "\"", " />"]
  }

  /** The markup the renderer writes for one field: its label, then its
      control. The attribute slot before `placeholder` holds `required` for a
      required field and nothing for an optional one. */
  function FieldMarkup(f: FieldSpec): (r: string)
    ensures StartsWith(r, "<label>" + f.caption)
    ensures Contains(r, "name=\"" + f.id + "\"")
    ensures f.required ==> Contains(r, f.caption + " *</label>") && Contains(r, " required ")
    ensures !f.required ==> StartsWith(r, "<label>" + f.caption + "</label>")
    ensures IsTextArea(f) ==> Contains(r, "\">" + InitialValue(f) + "</textarea>")
    ensures IsTextArea(f) ==> Contains(r, "name=\"" + f.id + "\" " + RequiredAttr(f.required) + " placeholder=\"")
    ensures !IsTextArea(f) ==>
      Contains(r, "<input type=\"" + InputType(f) + "\"") && Contains(r, "value=\"" + InitialValue(f) + "\"")
    ensures !IsTextArea(f) ==>
      Contains(r, "value=\"" + InitialValue(f) + "\" " + RequiredAttr(f.required) + " placeholder=\"")
  {
    var parts := ControlPieces(RenderField(f));
    LabelFacts(f.caption, f.required, parts);
    if IsTextArea(f) then
      TextAreaFacts(RenderField(f), parts);
      Concat(parts)
    else
      InputFacts(RenderField(f), InputType(f), parts);
      Concat(parts)
  }

  /** The label piece opens the markup. */
  lemma LabelFacts(caption: string, required: bool, parts: seq<string>)
    requires |parts| >= 1 && parts[0] == "<label>" + (caption + (if required then " *" else "")) + "</label>"
    ensures StartsWith(Concat(parts), "<label>" + caption)
    ensures required ==> Contains(Concat(parts), caption + " *</label>")
    ensures !required ==> StartsWith(Concat(parts), "<label>" + caption + "</label>")
  {
    var head, rest := parts[0], Concat(parts[1..]);
    assert Concat(parts) == head + rest;
    LabelPiece(caption, required, head);
    PrefixExtends(head, rest, "<label>" + caption, caption + " *</label>");
    if !required {
      PrefixExtends(head, rest, "<label>" + caption + "</label>", "");
    }
  }

  lemma LabelPiece(caption: string, required: bool, head: string)
    requires head == "<label>" + (caption + (if required then " *" else "")) + "</label>"
    ensures StartsWith(head, "<label>" + caption)
    ensures required ==> Contains(head, caption + " *</label>")
    ensures !required ==> head == "<label>" + caption + "</label>"
  {
    var mark := if required then " *" else "";
    assert head == "<label>" + caption + (mark + "</label>");
    StartsWithConcat("<label>" + caption, mark + "</label>");
    if required {
      assert head == "<label>" + (caption + " *</label>") + "";
      ContainsInfix("<label>", caption + " *</label>", "");
    }
  }

  lemma TextAreaFacts(c: Control, parts: seq<string>)
    requires c.element == TextArea && parts == ControlPieces(c)
    ensures Contains(Concat(parts), "name=\"" + c.name + "\"")
    ensures Contains(Concat(parts), "\">" + c.value + "</textarea>")
    ensures c.required ==> Contains(Concat(parts), " required ")
    ensures Contains(Concat(parts), "name=\"" + c.name + "\" " + RequiredAttr(c.required) + " placeholder=\"")
  {
    ConcatContainsPiece(parts, 2);
    ConcatContainsPiece(parts, 4);
    var slot := " " + RequiredAttr(c.required) + " placeholder=\"";
    ConcatContainsPair(parts, 2);
    SlotAfter(Concat(parts), parts[2], parts[3], slot, c.placeholder);
    assert parts[2] + slot == "name=\"" + c.name + "\" " + RequiredAttr(c.required) + " placeholder=\"";
    if c.required {
      RequiredPiece(c.required, c.placeholder);
      RequiredMark(Concat(parts), parts[2], parts[3], "placeholder=\"" + c.placeholder);
    }
  }

  lemma InputFacts(c: Control, t: string, parts: seq<string>)
    requires c.element == Input(t) && parts == ControlPieces(c)
    ensures Contains(Concat(parts), "<input type=\"" + t + "\"")
    ensures Contains(Concat(parts), "name=\"" + c.name + "\"")
    ensures Contains(Concat(parts), "value=\"" + c.value + "\"")
    ensures c.required ==> Contains(Concat(parts), " required ")
    ensures Contains(Concat(parts), "value=\"" + c.value + "\" " + RequiredAttr(c.required) + " placeholder=\"")
  {
    ConcatContainsPiece(parts, 1);
    ConcatContainsPiece(parts, 3);
    ConcatContainsPiece(parts, 5);
    var slot, rest := " " + RequiredAttr(c.required) + " placeholder=\"", c.placeholder + "\"";
    ConcatContainsPair(parts, 5);
    SlotAfter(Concat(parts), parts[5], parts[6], slot, rest);
    assert parts[5] + slot == "value=\"" + c.value + "\" " + RequiredAttr(c.required) + " placeholder=\"";
    if c.required {
      RequiredPiece(c.required, rest);
      RequiredMark(Concat(parts), parts[5], parts[6], "placeholder=\"" + rest);
    }
  }

  /** A text holding `x + slot + rest` holds `x + slot`. */
  lemma SlotAfter(s: string, x: string, y: string, slot: string, rest: string)
    requires Contains(s, x + y) && y == slot + rest
    ensures Contains(s, x + slot)
  {
    assert x + y == "" + (x + slot) + rest;
    PiecesWithin(s, x + y, "", x + slot, rest);
  }

  /** A text holding `x + " required " + rest` holds `" required "`. */
  lemma RequiredMark(s: string, x: string, y: string, rest: string)
    requires Contains(s, x + y) && y == " required " + rest
    ensures Contains(s, " required ")
  {
    assert x + y == x + " required " + rest;
    PiecesWithin(s, x + y, x, " required ", rest);
  }

  /** The `required` slot and the opening of `placeholder`, as one piece. */
  lemma RequiredPiece(required: bool, rest: string)
    ensures required ==>
      " " + RequiredAttr(required) + " placeholder=\"" + rest == " required " + ("placeholder=\"" + rest)
  {
    if required {
      assert " " + RequiredAttr(required) + " placeholder=\"" == " required " + "placeholder=\"";
    }
  }

  // ---------------------------------------------------------------------------
  // Collecting answers
  // ---------------------------------------------------------------------------

  /** The names of the controls. */
  function Names(cs: seq<Control>): set<string> {
    set i | 0 <= i < |cs| :: cs[i].name
  }

  /** No later control carries the same name as control `i`. */
  predicate LastWithName(cs: seq<Control>, i: int)
    requires 0 <= i < |cs|
  {
    forall j :: i < j < |cs| ==> cs[j].name != cs[i].name
  }

  /** `answers[el.name] = el.value` over the controls in page order: the answer
      set has one key per control name, and a later control overwrites an
      earlier one of the same name. `values` are what the user typed. */
  function CollectAnswers(cs: seq<Control>, values: seq<string>): (a: map<string, string>)
    requires |values| == |cs|
    ensures a.Keys == Names(cs)
    ensures forall i :: 0 <= i < |cs| && LastWithName(cs, i) ==> a[cs[i].name] == values[i]
  {
    if |cs| == 0 then map[] else
      var n := |cs| - 1;
      var prev := CollectAnswers(cs[..n], values[..n]);
      CollectStep(cs, values, cs[..n], values[..n], prev);
      prev[cs[n].name := values[n]]
  }

  /** Writing the last control's value on top of the answers of the ones
      before it. */
  lemma CollectStep(cs: seq<Control>, values: seq<string>, front: seq<Control>, frontValues: seq<string>,
                    prev: map<string, string>)
    requires |values| == |cs| > 0
    requires front == cs[..|cs| - 1] && frontValues == values[..|cs| - 1]
    requires prev.Keys == Names(front)
    requires forall i :: 0 <= i < |front| && LastWithName(front, i) ==> prev[front[i].name] == frontValues[i]
    ensures prev[cs[|cs| - 1].name := values[|cs| - 1]].Keys == Names(cs)
    ensures forall i :: 0 <= i < |cs| && LastWithName(cs, i) ==>
      prev[cs[|cs| - 1].name := values[|cs| - 1]][cs[i].name] == values[i]
  {
    var n := |cs| - 1;
    NamesSnoc(cs);
    forall i | 0 <= i < n && LastWithName(cs, i)
      ensures prev[cs[i].name] == values[i]
    {
      LastWithNameFront(cs, i);
      assert front[i] == cs[i] && frontValues[i] == values[i];
    }
  }

  /** The names of the controls are those of all but the last, and the last's. */
  lemma NamesSnoc(cs: seq<Control>)
    requires |cs| > 0
    ensures Names(cs) == Names(cs[..|cs| - 1]) + {cs[|cs| - 1].name}
  {
    var front := cs[..|cs| - 1];
    forall k | k in Names(cs) ensures k in Names(front) + {cs[|cs| - 1].name} {
      var i :| 0 <= i < |cs| && cs[i].name == k;
      if i < |front| { assert front[i] == cs[i]; }
    }
    forall k | k in Names(front) ensures k in Names(cs) {
      var i :| 0 <= i < |front| && front[i].name == k;
      assert front[i] == cs[i];
    }
  }

  /** A control last with its name stays so once the final control is dropped. */
  lemma LastWithNameFront(cs: seq<Control>, i: int)
    requires 0 <= i < |cs| - 1 && LastWithName(cs, i)
    ensures LastWithName(cs[..|cs| - 1], i)
  {
    var front := cs[..|cs| - 1];
    forall j | i < j < |front| ensures front[j].name != front[i].name {
      assert front[j] == cs[j] && front[i] == cs[i];
    }
  }

  /** On a schema type, whose field ids are distinct, the collected answers map
      every field id to exactly the value entered in that field's control. */
  lemma AnswersKeyedByFieldIds(fields: seq<FieldSpec>, values: seq<string>)
    requires DistinctFieldIds(fields)
    requires |values| == |fields|
    ensures CollectAnswers(RenderFields(fields), values).Keys == FieldIds(fields)
    ensures forall i :: 0 <= i < |fields| ==> CollectAnswers(RenderFields(fields), values)[fields[i].id] == values[i]
  {
    var cs := RenderFields(fields);
    assert forall i :: 0 <= i < |cs| ==> LastWithName(cs, i);
  }

  /** The common-law type pre-fills its jurisdiction statement with the fixed
      default text, in a multi-line control. */
  lemma JurisdictionDefault()
    ensures RenderFieldsFor(Trustbot, "private_common_law").Some?
    ensures var cs := RenderFieldsFor(Trustbot, "private_common_law").value;
      exists i :: 0 <= i < |cs| && cs[i].name == "jurisdiction" && cs[i].value == DefaultJurisdictionText
                  && cs[i].element == TextArea && !cs[i].required
  {
    FindInSchema("private_common_law");
    var cs := RenderFields(CommonLawType.fields);
    assert CommonLawType.fields[6].id == "jurisdiction";
    assert cs[6].name == "jurisdiction";
  }
}

=== FILE: generate.dfy ===
/** What the Generate button does with the answers: look the selected type up
    in the schema, stamp the draft with the identifier fixed when the page
    loaded, the owner, the banner, the disclaimer and the hex fingerprint of
    the digest, and render it with the type's template. The digest, taken over
    the selected type id and the answers together, comes in as bytes. */
module Generate {
  import opened Wrappers
  import opened Text
  import opened Hex
  import opened Schema
  import opened Templates
  import opened Identifier

  const TrustbotOwner: string := "Devon R. Robinson Private Trust"
  const TrustbotConf: string := "Confidential & Proprietary \U{2014} Distribution Restricted"

  /** The stamp of a draft: the fixed owner and banner, the schema's
      disclaimer, the given identifier and the digest in lowercase hex. */
  function DraftMeta(identifier: string, digest: seq<byte>): (meta: Meta)
    ensures meta.id == identifier && meta.owner == TrustbotOwner && meta.conf == TrustbotConf
    ensures meta.disclaimer == Trustbot.disclaimer
    ensures |meta.fingerprint| == 2 * |digest| && IsLowerHex(meta.fingerprint)
    ensures Decode(meta.fingerprint) == digest
  {
    DecodeEncode(digest);
    Meta(identifier, TrustbotOwner, TrustbotConf, Trustbot.disclaimer, Encode(digest))
  }

  /** The template a type names: the revocable one for `"revocable"`, the
      common-law one for every other string, there being no error branch. */
  function Render(t: TypeSpec, a: Answers, meta: Meta, generatedAt: string): (doc: seq<Line>)
    ensures Stamped(doc, meta, generatedAt)
    ensures t.template == "revocable" ==> RevocableContent(doc, a)
    ensures t.template != "revocable" ==> CommonLawContent(doc, a)
    ensures t.template != "revocable" ==> GovernanceClause in doc
  {
    if t.template == "revocable" then Revocable(a, meta, generatedAt) else CommonLaw(a, meta, generatedAt)
  }

  /** The draft for the selected type id, or `None` when the schema has no
      type with that id (where the handler dereferences `undefined`). */
  function Generate(schema: SchemaSpec, selected: string, a: Answers, meta: Meta, generatedAt: string): (r: Option<seq<Line>>)
    ensures r.None? <==> forall i :: 0 <= i < |schema.trustTypes| ==> schema.trustTypes[i].id != selected
    ensures r.Some? ==> exists i :: 0 <= i < |schema.trustTypes| && schema.trustTypes[i].id == selected
                                    && (forall j :: 0 <= j < i ==> schema.trustTypes[j].id != selected)
                                    && r.value == Render(schema.trustTypes[i], a, meta, generatedAt)
  {
    match Find(schema.trustTypes, selected)
    case None => None
    case Some(t) => Some(Render(t, a, meta, generatedAt))
  }

  /** In the shipped schema, `"revocable"` renders the revocable template,
      `"private_common_law"` the common-law one, and no other id renders. */
  lemma TrustbotDispatch(selected: string, a: Answers, meta: Meta, generatedAt: string)
    ensures Generate(Trustbot, "revocable", a, meta, generatedAt) == Some(Revocable(a, meta, generatedAt))
    ensures Generate(Trustbot, "private_common_law", a, meta, generatedAt) == Some(CommonLaw(a, meta, generatedAt))
    ensures selected != "revocable" && selected != "private_common_law" ==>
      Generate(Trustbot, selected, a, meta, generatedAt) == None
  {
    FindInSchema(selected);
    assert RevocableType.template == "revocable" && CommonLawType.template != "revocable";
    GenerateFound(Trustbot, "revocable", RevocableType, a, meta, generatedAt);
    GenerateFound(Trustbot, "private_common_law", CommonLawType, a, meta, generatedAt);
  }

  /** Generate renders whatever type the lookup finds. */
  lemma GenerateFound(schema: SchemaSpec, selected: string, t: TypeSpec, a: Answers, meta: Meta, generatedAt: string)
    requires Find(schema.trustTypes, selected) == Some(t)
    ensures Generate(schema, selected, a, meta, generatedAt) == Some(Render(t, a, meta, generatedAt))
  {
  }

  /** The whole click: the rendered HTML fragment for the selected type,
      stamped with the identifier of the date `loaded` the page was loaded on. */
  function Draft(selected: string, a: Answers, digest: seq<byte>, loaded: Date, generatedAt: string): (r: Option<string>)
    requires ValidDate(loaded)
    ensures r.None? <==> selected != "revocable" && selected != "private_common_law"
    ensures r.Some? ==>
      && Contains(r.value, IdentifierOpen + TrustbotIdentifier(loaded))
      && Contains(r.value, StampOpen + TrustbotIdentifier(loaded))
      && Contains(r.value, TrustbotOwner)
      && Contains(r.value, TrustbotConf)
      && Contains(r.value, Disclaimer)
      && Contains(r.value, Encode(digest))
      && Contains(r.value, generatedAt)
    ensures selected == "revocable" ==>
      r == Some(Markup(Revocable(a, DraftMeta(TrustbotIdentifier(loaded), digest), generatedAt)))
    ensures selected == "private_common_law" ==>
      r == Some(Markup(CommonLaw(a, DraftMeta(TrustbotIdentifier(loaded), digest), generatedAt)))
  {
    var meta := DraftMeta(TrustbotIdentifier(loaded), digest);
    FindInSchema(selected);
    TrustbotDispatch(selected, a, meta, generatedAt);
    match Generate(Trustbot, selected, a, meta, generatedAt)
    case None => None
    case Some(doc) =>
      StampedMarkup(doc, meta, generatedAt);
      Some(Markup(doc))
  }

  /** The common-law draft carries the default jurisdiction text in its
      governance article, whatever the jurisdiction answer says. */
  lemma CommonLawDraftGovernance(a: Answers, digest: seq<byte>, loaded: Date, generatedAt: string)
    requires ValidDate(loaded)
    ensures Draft("private_common_law", a, digest, loaded, generatedAt).Some?
    ensures Contains(Draft("private_common_law", a, digest, loaded, generatedAt).value, DefaultJurisdictionText)
  {
    var meta := DraftMeta(TrustbotIdentifier(loaded), digest);
    TrustbotDispatch("private_common_law", a, meta, generatedAt);
    CommonLawGovernanceText(a, meta, generatedAt);
  }
}

=== FILE: hex.dfy ===
/** The last step of the fingerprint: every byte of the digest written as two
    lowercase hexadecimal digits (`b.toString(16).padStart(2, "0")`), the pairs
    joined with nothing between them. The digest itself is not modelled. */
module Hex {
  import opened Text

  type byte = b: int | 0 <= b < 256

  /** The alphabet of the output: `0-9` and `a-f`, never upper case. */
  predicate IsHexDigit(c: char) {
    ('0' <= c <= '9') || ('a' <= c <= 'f')
  }

  predicate IsLowerHex(s: string) {
    forall k :: 0 <= k < |s| ==> IsHexDigit(s[k])
  }

  /** The digit that `Number.prototype.toString(16)` writes for `n`. */
  function Digit(n: int): (c: char)
    requires 0 <= n < 16
    ensures IsHexDigit(c)
  {
    if n < 10 then (48 + n) as char else (97 + n - 10) as char
  }

  /** The value of one lowercase hex digit. */
  function DigitValue(c: char): (n: int)
    requires IsHexDigit(c)
    ensures 0 <= n < 16
  {
    if c <= '9' then c as int - 48 else c as int - 97 + 10
  }

  lemma DigitRoundTrip(n: int)
    requires 0 <= n < 16
    ensures DigitValue(Digit(n)) == n
  {
  }

  /** The number a string of hex digits denotes, most significant first. */
  function ValueOf(s: string): nat
    requires IsLowerHex(s)
  {
    if |s| == 0 then 0 else 16 * ValueOf(s[..|s| - 1]) + DigitValue(s[|s| - 1])
  }

  /** `n.toString(16)`: the shortest hex numeral for `n`, with no leading zero
      (so `"0"` for zero). */
  function ToRadix16(n: nat): (r: string)
    ensures IsLowerHex(r)
    ensures ValueOf(r) == n
    ensures 1 <= |r|
    ensures n < 16 ==> |r| == 1
    ensures 16 <= n < 256 ==> |r| == 2
  {
    if n < 16 then
      DigitRoundTrip(n);
      [Digit(n)]
    else
      var high := ToRadix16(n / 16);
      var r := high + [Digit(n % 16)];
      assert r[..|r| - 1] == high;
      DigitRoundTrip(n % 16);
      r
  }

  /** One byte as exactly two lowercase hex digits, zero-padded. */
  function ByteHex(b: byte): (r: string)
    ensures |r| == 2
    ensures IsLowerHex(r)
    ensures 16 * DigitValue(r[0]) + DigitValue(r[1]) == b
  {
    var digits := ToRadix16(b);
    var r := PadStart(digits, 2, '0');
    if b < 16 then
      assert r == ['0'] + digits;
      assert ValueOf(digits) == DigitValue(digits[0]) by {
        assert digits[..0] == [];
      }
      r
    else
      assert digits[..1] == [digits[0]] && digits[..1][..0] == [];
      r
  }

  /** The hex string of a byte sequence: the bytes' pairs, in order. */
  function Encode(bytes: seq<byte>): (r: string)
    ensures |r| == 2 * |bytes|
    ensures IsLowerHex(r)
    ensures forall i :: 0 <= i < |bytes| ==> r[2 * i..2 * i + 2] == ByteHex(bytes[i])
  {
    if |bytes| == 0 then "" else
      var head := ByteHex(bytes[0]);
      var rest := Encode(bytes[1..]);
      var r := head + rest;
      assert forall i :: 1 <= i < |bytes| ==> r[2 * i..2 * i + 2] == rest[2 * (i - 1)..2 * (i - 1) + 2];
      r
  }

  /** Reads a string of hex-digit pairs back into bytes. */
  function Decode(s: string): (bytes: seq<byte>)
    requires |s| % 2 == 0 && IsLowerHex(s)
    ensures |bytes| == |s| / 2
  {
    if |s| == 0 then [] else
      [16 * DigitValue(s[0]) + DigitValue(s[1])] + Decode(s[2..])
  }

  /** Decoding undoes encoding. */
  lemma {:induction false} DecodeEncode(bytes: seq<byte>)
    ensures Decode(Encode(bytes)) == bytes
  {
    if |bytes| > 0 {
      var r := Encode(bytes);
      assert r[0..2] == ByteHex(bytes[0]);
      assert r[2..] == Encode(bytes[1..]);
      DecodeEncode(bytes[1..]);
    }
  }

  /** Distinct byte sequences give distinct hex strings. */
  lemma EncodeInjective(x: seq<byte>, y: seq<byte>)
    requires Encode(x) == Encode(y)
    ensures x == y
  {
    DecodeEncode(x);
    DecodeEncode(y);
  }

  /** A SHA-256 digest (32 bytes) becomes 64 lowercase hex characters. */
  lemma DigestHexLength(digest: seq<byte>)
    requires |digest| == 32
    ensures |Encode(digest)| == 64 && IsLowerHex(Encode(digest))
  {
  }
}

=== FILE: identifier.dfy ===
/** The document identifier: a constant prefix, a hyphen, and the date the
    page was loaded on as the `en-CA` formatter writes it, `YYYY-MM-DD` (the
    year in plain decimal, month and day always two digits). Which day it is,
    and its conversion to New York time, come in from outside as a `Date`. */
module Identifier {
  import opened Wrappers
  import opened Text

  const TrustbotIdPrefix: string := "DRR-TRUSTBOT-ALPHA-CEC1-SENTINEL-FCPS1.0"

  /** A calendar date: month 1 to 12, day 1 to 31. */
  datatype Date = Date(year: nat, month: nat, day: nat)

  predicate ValidDate(d: Date) {
    1 <= d.month <= 12 && 1 <= d.day <= 31
  }

  predicate IsDigit(c: char) {
    '0' <= c <= '9'
  }

  predicate AllDigits(s: string) {
    forall k :: 0 <= k < |s| ==> IsDigit(s[k])
  }

  function DigitChar(n: int): (c: char)
    requires 0 <= n < 10
    ensures IsDigit(c)
  {
    (48 + n) as char
  }

  function DigitOf(c: char): (n: int)
    requires IsDigit(c)
    ensures 0 <= n < 10
  {
    c as int - 48
  }

  /** The number a string of decimal digits denotes, most significant first. */
  function DecimalValue(s: string): nat
    requires AllDigits(s)
  {
    if |s| == 0 then 0 else 10 * DecimalValue(s[..|s| - 1]) + DigitOf(s[|s| - 1])
  }

  /** The shortest decimal numeral for `n` (so `"0"` for zero): how a
      `numeric` date part is written. */
  function Decimal(n: nat): (r: string)
    ensures AllDigits(r)
    ensures DecimalValue(r) == n
    ensures 1 <= |r|
    ensures r[0] == '0' <==> n == 0
    ensures n < 10 ==> |r| == 1
    ensures 10 <= n < 100 ==> |r| == 2
    ensures 100 <= n < 1000 ==> |r| == 3
    ensures 1000 <= n < 10000 ==> |r| == 4
  {
    if n < 10 then [DigitChar(n)]
    else
      var high := Decimal(n / 10);
      var r := high + [DigitChar(n % 10)];
      assert r[..|r| - 1] == high && r[0] == high[0];
      r
  }

  /** The numerals below a hundred, digit by digit. */
  lemma DecimalBelowHundred(n: nat)
    requires n < 100
    ensures n < 10 ==> Decimal(n) == [DigitChar(n)]
    ensures 10 <= n ==> Decimal(n) == [DigitChar(n / 10), DigitChar(n % 10)]
  {
  }

  /** A `2-digit` date part: the numeral zero-padded to two characters. */
  function TwoDigits(n: nat): (r: string)
    requires n < 100
    ensures |r| == 2 && AllDigits(r)
    ensures 10 * DigitOf(r[0]) + DigitOf(r[1]) == n
  {
    var r := PadStart(Decimal(n), 2, '0');
    TwoDigitsShape(n);
    TensAndUnits(n);
    r
  }

  lemma TensAndUnits(n: nat)
    requires n < 100
    ensures 10 * DigitOf(DigitChar(n / 10)) + DigitOf(DigitChar(n % 10)) == n
  {
  }

  /** The padded numeral below a hundred is its tens digit, then its units digit. */
  lemma TwoDigitsShape(n: nat)
    requires n < 100
    ensures PadStart(Decimal(n), 2, '0') == [DigitChar(n / 10), DigitChar(n % 10)]
  {
    DecimalBelowHundred(n);
    if n < 10 {
      PadOneDigit(DigitChar(n));
      assert n / 10 == 0 && n % 10 == n;
    }
  }

  /** A single character padded to two gets one leading zero. */
  lemma PadOneDigit(c: char)
    ensures PadStart([c], 2, '0') == ['0', c]
  {
    var r := PadStart([c], 2, '0');
    assert |r| == 2 && r[0] == '0' && r[1..] == [c];
  }

  /** Where the parts of `y-m-d` sit, for two-character `m` and `d`. */
  lemma Hyphenated(y: string, m: string, d: string)
    requires |m| == 2 && |d| == 2
    ensures var r := y + "-" + m + "-" + d;
      && |r| == |y| + 6
      && r[..|r| - 6] == y
      && r[|r| - 6] == '-' && r[|r| - 3] == '-'
      && r[|r| - 5..|r| - 3] == m && r[|r| - 2..] == d
  {
    var r := y + "-" + m + "-" + d;
    assert r[..|y|] == y;
    assert r[|y| + 1..|y| + 3] == m;
    assert r[|y| + 4..] == d;
  }

  /** `${y}-${m}-${d}` with the parts as the formatter writes them: digits,
      a hyphen, two digits, a hyphen, two digits, ten characters in all for a
      four-digit year, and it reads back as the date it was made from. */
  function DateStamp(d: Date): (r: string)
    requires ValidDate(d)
    ensures |r| == |Decimal(d.year)| + 6
    ensures 1000 <= d.year < 10000 ==> |r| == 10
    ensures r[|r| - 6] == '-' && r[|r| - 3] == '-'
    ensures AllDigits(r[..|r| - 6]) && AllDigits(r[|r| - 5..|r| - 3]) && AllDigits(r[|r| - 2..])
    ensures r[0] != '0' || d.year == 0
    ensures ParseDateStamp(r) == Some(d)
  {
    var y, m, dd := Decimal(d.year), TwoDigits(d.month), TwoDigits(d.day);
    var r := y + "-" + m + "-" + dd;
    Hyphenated(y, m, dd);
    assert r[0] == y[0];
    assert TwoDigitValue(m) == d.month && TwoDigitValue(dd) == d.day;
    ParseStamp(r, y, m, dd, d);
    r
  }

  /** The value of a two-digit part. */
  function TwoDigitValue(m: string): (n: nat)
    requires |m| == 2 && AllDigits(m)
    ensures n < 100
  {
    10 * DigitOf(m[0]) + DigitOf(m[1])
  }

  /** Reads a `YYYY-MM-DD` stamp back into a date; `None` for anything else. */
  function ParseDateStamp(s: string): (r: Option<Date>)
    ensures r.Some? ==> ValidDate(r.value)
  {
    if |s| < 7 || s[|s| - 6] != '-' || s[|s| - 3] != '-' then None
    else
      var y, m, d := s[..|s| - 6], s[|s| - 5..|s| - 3], s[|s| - 2..];
      if !AllDigits(y) || !AllDigits(m) || !AllDigits(d) then None
      else
        var month, day := TwoDigitValue(m), TwoDigitValue(d);
        if 1 <= month <= 12 && 1 <= day <= 31 then Some(Date(DecimalValue(y), month, day)) else None
  }

  /** A year's digits and two two-digit parts, hyphenated, parse back to
      that date. */
  lemma ParseStamp(s: string, y: string, m: string, dd: string, d: Date)
    requires ValidDate(d) && s == y + "-" + m + "-" + dd
    requires 1 <= |y| && AllDigits(y) && AllDigits(m) && AllDigits(dd) && |m| == 2 && |dd| == 2
    requires DecimalValue(y) == d.year && TwoDigitValue(m) == d.month && TwoDigitValue(dd) == d.day
    ensures ParseDateStamp(s) == Some(d)
  {
    assert s[..|s| - 6] == y && s[|s| - 5..|s| - 3] == m && s[|s| - 2..] == dd;
    assert s[|s| - 6] == '-' && s[|s| - 3] == '-';
  }

  /** `${prefix}-${stamp}`: the prefix and a hyphen, then a stamp that reads
      back as the date. */
  function MakeIdentifier(prefix: string, d: Date): (r: string)
    requires ValidDate(d)
    ensures StartsWith(r, prefix + "-")
    ensures |r| == |prefix| + |Decimal(d.year)| + 7
    ensures ParseDateStamp(r[|prefix| + 1..]) == Some(d)
  {
    var r := prefix + "-" + DateStamp(d);
    assert r[..|prefix| + 1] == prefix + "-";
    assert r[|prefix| + 1..] == DateStamp(d);
    r
  }

  /** The identifier the page computes once, when the script loads, from the
      New York date of that moment; every draft generated on that page carries
      it, however long the page stays open. */
  function TrustbotIdentifier(loaded: Date): (r: string)
    requires ValidDate(loaded)
    ensures StartsWith(r, TrustbotIdPrefix + "-")
    ensures 1000 <= loaded.year < 10000 ==> |r| == |TrustbotIdPrefix| + 11
    ensures ParseDateStamp(r[|TrustbotIdPrefix| + 1..]) == Some(loaded)
  {
    MakeIdentifier(TrustbotIdPrefix, loaded)
  }

  /** Under one prefix, the identifier names the day: two days never share one. */
  lemma IdentifierDeterminesDate(prefix: string, d1: Date, d2: Date)
    requires ValidDate(d1) && ValidDate(d2)
    requires MakeIdentifier(prefix, d1) == MakeIdentifier(prefix, d2)
    ensures d1 == d2
  {
    var r := MakeIdentifier(prefix, d1);
    assert ParseDateStamp(r[|prefix| + 1..]) == Some(d1) && ParseDateStamp(r[|prefix| + 1..]) == Some(d2);
  }

  /** The stamp of the fourth of March 2024. */
  lemma TrustbotIdentifierExample()
    ensures TrustbotIdentifier(Date(2024, 3, 4)) == "DRR-TRUSTBOT-ALPHA-CEC1-SENTINEL-FCPS1.0-2024-03-04"
  {
    StampExample();
    assert TrustbotIdPrefix + "-" + "2024-03-04" == "DRR-TRUSTBOT-ALPHA-CEC1-SENTINEL-FCPS1.0-2024-03-04";
  }

  lemma StampExample()
    ensures DateStamp(Date(2024, 3, 4)) == "2024-03-04"
  {
    YearExample();
    TwoDigitsShape(3);
    TwoDigitsShape(4);
    assert TwoDigits(3) == "03" && TwoDigits(4) == "04";
    assert "2024" + "-" + "03" + "-" + "04" == "2024-03-04";
  }

  lemma YearExample()
    ensures Decimal(2024) == "2024"
  {
    DecimalBelowHundred(20);
    assert Decimal(20) == "20";
    assert Decimal(202) == Decimal(20) + [DigitChar(2)];
    assert Decimal(2024) == Decimal(202) + [DigitChar(4)];
  }
}

=== FILE: schema.dfy ===
/** The static schema: the two trust types the generator offers and, for each,
    the ordered list of fields the user fills in. */
module Schema {
  import opened Wrappers

  /** One input field (`caption` is its `label`). `kind` is the field's `type` string (absent means a
      text box), `defaultValue` the pre-filled value when the schema gives one. */
  datatype FieldSpec = FieldSpec(
    id: string,
    caption: string,
    kind: Option<string>,
    required: bool,
    defaultValue: Option<string>,
    placeholder: Option<string>)

  /** One document type: `template` names the template that renders it. */
  datatype TypeSpec = TypeSpec(id: string, caption: string, template: string, fields: seq<FieldSpec>)

  datatype SchemaSpec = SchemaSpec(
    version: string,
    defaultJurisdictionMode: string,
    disclaimer: string,
    trustTypes: seq<TypeSpec>)

  const DefaultMailingAddress: string := "350 Northern Blvd, Albany, NY 12204, Ste 324"

  const DefaultJurisdictionText: string :=
    "This private trust is organized and administered under common law. Any reference to state or federal systems is solely for administrative purposes and does not confer jurisdiction absent the Trustees\U{2019} explicit, written consent."

  const Disclaimer: string := "Educational draft only. Not legal advice. Review with a qualified attorney."

  /** A field as the schema literal writes it: no placeholder anywhere. */
  function Field(id: string, caption: string, kind: string, required: bool, defaultValue: Option<string>): FieldSpec {
    FieldSpec(id, caption, Some(kind), required, defaultValue, None)
  }

  const RevocableType: TypeSpec := TypeSpec("revocable", "Revocable Living Trust", "revocable", [
    Field("grantorName", "Grantor Full Name", "text", true, None),
    Field("trusteeName", "Trustee Full Name", "text", true, None),
    Field("beneficiaryName", "Primary Beneficiary", "text", true, None),
    Field("establishedDate", "Date Established", "date", true, None),
    Field("governingLaw", "Governing Law", "text", false, Some("Common Law")),
    Field("successorTrustee", "Successor Trustee", "text", false, None),
    Field("successorBeneficiary", "Successor Beneficiary", "text", false, None)
  ])

  const CommonLawType: TypeSpec := TypeSpec("private_common_law", "Private Trust (Common Law)", "commonlaw", [
    Field("settlor", "Settlor", "text", true, None),
    Field("trustee", "Trustee", "text", true, None),
    Field("beneficiaries", "Beneficiaries (comma-separated)", "text", true, None),
    Field("trustName", "Trust Name", "text", true, None),
    Field("date", "Effective Date", "date", true, None),
    Field("mailingAddress", "Mailing Address", "text", false, Some(DefaultMailingAddress)),
    Field("jurisdiction", "Jurisdiction Statement", "textarea", false, Some(DefaultJurisdictionText))
  ])

  const Trustbot: SchemaSpec := SchemaSpec("0.2", "common-law", Disclaimer, [RevocableType, CommonLawType])

  /** No two fields of a type share an id, so the ids can key the answers. */
  predicate DistinctFieldIds(fields: seq<FieldSpec>) {
    forall i, j :: 0 <= i < j < |fields| ==> fields[i].id != fields[j].id
  }

  predicate DistinctTypeIds(types: seq<TypeSpec>) {
    forall i, j :: 0 <= i < j < |types| ==> types[i].id != types[j].id
  }

  function FieldIds(fields: seq<FieldSpec>): (ids: set<string>)
    ensures forall i :: 0 <= i < |fields| ==> fields[i].id in ids
    ensures forall k :: k in ids ==> exists i :: 0 <= i < |fields| && fields[i].id == k
  {
    set i | 0 <= i < |fields| :: fields[i].id
  }

  /** `trustTypes.find(t => t.id === id)`: the first type with that id, if any. */
  function Find(types: seq<TypeSpec>, id: string): (r: Option<TypeSpec>)
    ensures r.None? <==> forall i :: 0 <= i < |types| ==> types[i].id != id
    ensures r.Some? ==> exists i :: 0 <= i < |types| && types[i] == r.value && r.value.id == id
                                     && forall j :: 0 <= j < i ==> types[j].id != id
  {
    if |types| == 0 then None
    else if types[0].id == id then Some(types[0])
    else
      var r := Find(types[1..], id);
      assert forall i :: 1 <= i < |types| ==> types[i] == types[1..][i - 1];
      r
  }

  /** The fields of the type with id `typeId`; `None` for an id the schema
      does not know, where the source dereferences `undefined` and throws. */
  function FieldsFor(schema: SchemaSpec, typeId: string): (r: Option<seq<FieldSpec>>)
    ensures r.None? <==> forall i :: 0 <= i < |schema.trustTypes| ==> schema.trustTypes[i].id != typeId
    ensures r.Some? ==> exists i :: 0 <= i < |schema.trustTypes| && schema.trustTypes[i].id == typeId
                                     && (forall j :: 0 <= j < i ==> schema.trustTypes[j].id != typeId)
                                     && r.value == schema.trustTypes[i].fields
  {
    match Find(schema.trustTypes, typeId)
    case None => None
    case Some(t) => Some(t.fields)
  }

  /** Every field id in the schema is distinct within its type, and so are the
      type ids. */
  lemma SchemaIdsDistinct()
    ensures DistinctTypeIds(Trustbot.trustTypes)
    ensures forall t :: t in Trustbot.trustTypes ==> DistinctFieldIds(t.fields)
  {
    assert DistinctFieldIds(RevocableType.fields);
    assert DistinctFieldIds(CommonLawType.fields);
  }

  /** The two type ids resolve to the two types, and any other id to nothing. */
  lemma FindInSchema(id: string)
    ensures Find(Trustbot.trustTypes, "revocable") == Some(RevocableType)
    ensures Find(Trustbot.trustTypes, "private_common_law") == Some(CommonLawType)
    ensures id != "revocable" && id != "private_common_law" ==> Find(Trustbot.trustTypes, id) == None
  {
  }
}

=== FILE: templates.dfy ===
/** The two document templates. Each is a pure function of the answers, the
    document metadata and the generation timestamp, producing a sequence of
    lines: fixed markup, a slot that interpolates one value between fixed text,
    or a labelled entry `<p><strong>Caption:</strong> value</p>`. `Markup`
    joins the lines into the HTML fragment. Interpolated values are not
    escaped, exactly as in the templates modelled. */
module Templates {
  import opened Text
  import opened Schema

  /** The answers, keyed by field id. */
  type Answers = map<string, string>

  /** What every document is stamped with; `fingerprint` is the hex digest. */
  datatype Meta = Meta(id: string, owner: string, conf: string, disclaimer: string, fingerprint: string)

  /** The captions of the answer lines, across both templates. */
  datatype Caption =
    | Grantor | Trustee | PrimaryBeneficiary | DateEstablished | GoverningLaw
    | SuccessorTrustee | SuccessorBeneficiary
    | Settlor | Beneficiaries | TrustName | EffectiveDate | MailingAddress | JurisdictionStatement

  function CaptionText(c: Caption): string {
    match c
    case Grantor => "Grantor"
    case Trustee => "Trustee"
    case PrimaryBeneficiary => "Primary Beneficiary"
    case DateEstablished => "Date Established"
    case GoverningLaw => "Governing Law"
    case SuccessorTrustee => "Successor Trustee"
    case SuccessorBeneficiary => "Successor Beneficiary"
    case Settlor => "Settlor"
    case Beneficiaries => "Beneficiaries"
    case TrustName => "Trust Name"
    case EffectiveDate => "Effective Date"
    case MailingAddress => "Mailing Address"
    case JurisdictionStatement => "Jurisdiction Statement"
  }

  datatype Line =
    | Fixed(markup: string)
    | Slot(before: string, value: string, after: string)
    | Entry(caption: Caption, value: string)

  /** An answer is truthy, as `a.key` is in a JavaScript condition, when it
      is there and not empty. */
  predicate Present(a: Answers, key: string) {
    key in a && a[key] != ""
  }

  /** `a.key || fallback`. */
  function AnswerOr(a: Answers, key: string, fallback: string): (v: string)
    ensures Present(a, key) ==> v == a[key]
    ensures !Present(a, key) ==> v == fallback
  {
    if Present(a, key) then a[key] else fallback
  }

  /** `a.key || ""`: a missing answer reads as empty. */
  function Answer(a: Answers, key: string): string {
    AnswerOr(a, key, "")
  }

  /** `${a.key ? <entry> : ""}`: the entry only when the answer is truthy. */
  function Optional(a: Answers, key: string, caption: Caption): seq<Line> {
    if Present(a, key) then [Entry(caption, a[key])] else []
  }

  function LineMarkup(l: Line): string {
    match l
    case Fixed(m) => m
    case Slot(b, v, after) => b + v + after
    case Entry(c, v) => "<p><strong>" + CaptionText(c) + ":</strong> " + v + "</p>"
  }

  function Rendered(doc: seq<Line>): (r: seq<string>)
    ensures |r| == |doc|
    ensures forall i :: 0 <= i < |doc| ==> r[i] == LineMarkup(doc[i])
  {
    seq(|doc|, i requires 0 <= i < |doc| => LineMarkup(doc[i]))
  }

  /** The HTML fragment: the lines' markup, one per line, in order; empty
      only for a document of no lines, and opened by the first line. */
  function Markup(doc: seq<Line>): (r: string)
    ensures r == "" <==> |doc| == 0
    ensures |doc| > 0 ==> StartsWith(r, LineMarkup(doc[0]))
  {
    JoinLines(Rendered(doc))
  }

  /** Every line's markup occurs verbatim in the HTML. */
  lemma LinesInMarkup(doc: seq<Line>, i: int)
    requires 0 <= i < |doc|
    ensures Contains(Markup(doc), LineMarkup(doc[i]))
  {
    JoinLinesContains(Rendered(doc), i);
  }

  // ---------------------------------------------------------------------------
  // Shared blocks
  // ---------------------------------------------------------------------------

  // The long fixed markup lives in named constants.
  const HeaderOpen := "<header style=\"font-family: ui-monospace, SFMono-Regular, Menlo, monospace; color:#333;\">"
  const TitleOpen := "<h2 style=\"text-align:center; text-transform:uppercase; letter-spacing:.08em;\">"
  const BoxOpen := "<div style=\"border:1px solid #222; padding:1rem; border-radius:8px;\">"
  const DeclarationText :=
    "<p>The Grantor declares the creation of this Trust as a private arrangement for the benefit of the named Beneficiary(ies).</p>"
  const IdentifierOpen := "<div>Identifier: <strong>"
  const StampOpen := "<div>Stamp: "
  const FingerprintOpen := "<div>Fingerprint (SHA256): "

  /** The header both templates open with: identifier, owner, banner. */
  function Header(meta: Meta): seq<Line> {
    [ Fixed(HeaderOpen),
      Slot(IdentifierOpen, meta.id, "</strong></div>"),
      Slot("<div>Owner: ", meta.owner, "</div>"),
      Slot("<div>", meta.conf, "</div>"),
      Fixed("</header>") ]
  }

  /** The title, the disclaimer, and the opening of the answers box. */
  function Title(title: string, meta: Meta): seq<Line> {
    [ Slot(TitleOpen, title, "</h2>"),
      Slot("<p><em>", meta.disclaimer, "</em></p>"),
      Fixed(BoxOpen) ]
  }

  /** The stamp both templates close with: timestamp, fingerprint, identifier. */
  function Stamp(meta: Meta, generatedAt: string): seq<Line> {
    [ Fixed("<hr>"),
      Fixed("<div class=\"stamp\">"),
      Slot("<div>Generated: ", generatedAt, "</div>"),
      Slot(FingerprintOpen, meta.fingerprint, "</div>"),
      Slot(StampOpen, meta.id, "</div>"),
      Fixed("</div>") ]
  }

  /** The metadata sits where both templates put it: the identifier second in
      the header and second to last in the stamp, the owner, banner,
      disclaimer, timestamp and fingerprint each on a line of their own. */
  predicate Stamped(doc: seq<Line>, meta: Meta, generatedAt: string) {
    && |doc| >= 8
    && doc[1] == Slot(IdentifierOpen, meta.id, "</strong></div>")
    && doc[2] == Slot("<div>Owner: ", meta.owner, "</div>")
    && doc[3] == Slot("<div>", meta.conf, "</div>")
    && doc[6] == Slot("<p><em>", meta.disclaimer, "</em></p>")
    && doc[|doc| - 4] == Slot("<div>Generated: ", generatedAt, "</div>")
    && doc[|doc| - 3] == Slot(FingerprintOpen, meta.fingerprint, "</div>")
    && doc[|doc| - 2] == Slot(StampOpen, meta.id, "</div>")
  }

  ghost predicate NoEntries(lines: seq<Line>) {
    forall c, v :: Entry(c, v) !in lines
  }

  /** Lines placed around `body` and `tail`: nothing is lost, and when the
      opening lines hold no entries, every entry comes from the other two. */
  lemma Framed(head: seq<Line>, body: seq<Line>, tail: seq<Line>)
    requires NoEntries(head)
    ensures forall c, v :: Entry(c, v) in head + body + tail <==> Entry(c, v) in body || Entry(c, v) in tail
    ensures forall l :: l in body ==> l in head + body + tail
    ensures forall l :: l in tail ==> l in head + body + tail
  {
  }

  /** The opening lines: eight of them, none an entry, the metadata in place. */
  lemma OpeningLines(title: string, meta: Meta)
    ensures var head := Header(meta) + Title(title, meta);
      && |head| == 8 && NoEntries(head)
      && head[1] == Slot(IdentifierOpen, meta.id, "</strong></div>")
      && head[2] == Slot("<div>Owner: ", meta.owner, "</div>")
      && head[3] == Slot("<div>", meta.conf, "</div>")
      && head[6] == Slot("<p><em>", meta.disclaimer, "</em></p>")
  {
    var h, t := Header(meta), Title(title, meta);
    assert NoEntries(h) && NoEntries(t);
    Framed(h, t, []);
    assert h + t + [] == h + t;
  }

  /** A whole document: header, title and disclaimer, the answers box holding
      `body`, the closing `article`, then the stamp. Only the body and the
      article can hold entries. */
  function Document(title: string, meta: Meta, generatedAt: string, body: seq<Line>, article: seq<Line>): (doc: seq<Line>)
    ensures Stamped(doc, meta, generatedAt)
    ensures forall c, v :: Entry(c, v) in doc <==> Entry(c, v) in body || Entry(c, v) in article
    ensures forall l :: l in body ==> l in doc
    ensures forall l :: l in article ==> l in doc
    ensures |doc| == |body| + |article| + 15
    ensures doc[8..8 + |body|] == body && doc[8 + |body|] == Fixed("</div>")
    ensures doc[9 + |body|..9 + |body| + |article|] == article
    ensures doc[5] == Slot(TitleOpen, title, "</h2>")
  {
    var head := Header(meta) + Title(title, meta);
    var stamp := Stamp(meta, generatedAt);
    var tail := [Fixed("</div>")] + article + stamp;
    var doc := head + body + tail;
    OpeningLines(title, meta);
    Framed(head, body, tail);
    assert NoEntries([Fixed("</div>")] + stamp);
    Framed([Fixed("</div>")], article, stamp);
    assert doc[|doc| - 6..] == stamp;
    assert doc[8..8 + |body|] == body;
    assert doc[9 + |body|..9 + |body| + |article|] == article;
    doc
  }

  // ---------------------------------------------------------------------------
  // Answer lines
  // ---------------------------------------------------------------------------

  /** How a template writes one answer line: `Always(fallback)` is
      `<p>…${a.key || fallback}</p>`, `WhenPresent` is
      `${a.key ? <p>…${a.key}</p> : ""}`. */
  datatype Rule = Always(fallback: string) | WhenPresent

  /** One answer line of a template: its caption, the answer it reads, its rule. */
  datatype Row = Row(caption: Caption, key: string, rule: Rule)

  function RowLines(a: Answers, row: Row): seq<Line> {
    match row.rule
    case Always(fallback) => [Entry(row.caption, AnswerOr(a, row.key, fallback))]
    case WhenPresent => Optional(a, row.key, row.caption)
  }

  /** The row puts an entry carrying `v` in the document. */
  predicate Shows(a: Answers, row: Row, v: string) {
    match row.rule
    case Always(fallback) => v == AnswerOr(a, row.key, fallback)
    case WhenPresent => Present(a, row.key) && v == a[row.key]
  }

  /** The answers box: the rows' lines in order. It holds only entries, each
      put there by some row, and every entry a row shows. */
  function Entries(a: Answers, rows: seq<Row>): (body: seq<Line>)
    ensures |body| <= |rows|
    ensures forall l :: l in body ==> l.Entry?
    ensures forall c, v :: Entry(c, v) in body ==>
      exists i :: 0 <= i < |rows| && rows[i].caption == c && Shows(a, rows[i], v)
    ensures forall i, v :: 0 <= i < |rows| && Shows(a, rows[i], v) ==> Entry(rows[i].caption, v) in body
  {
    if |rows| == 0 then [] else
      var rest := Entries(a, rows[1..]);
      var body := RowLines(a, rows[0]) + rest;
      assert forall i :: 1 <= i < |rows| ==> rows[i] == rows[1..][i - 1];
      body
  }

  predicate DistinctCaptions(rows: seq<Row>) {
    forall i, j :: 0 <= i < j < |rows| ==> rows[i].caption != rows[j].caption
  }

  /** The position of the first row with caption `c`, or `|rows|` when no row has it. */
  function RowOf(rows: seq<Row>, c: Caption): (k: nat)
    ensures k <= |rows|
    ensures k < |rows| ==> rows[k].caption == c
    ensures forall j :: 0 <= j < k ==> rows[j].caption != c
  {
    if |rows| == 0 then 0
    else if rows[0].caption == c then 0
    else
      var k := 1 + RowOf(rows[1..], c);
      assert forall j :: 1 <= j < |rows| ==> rows[j] == rows[1..][j - 1];
      k
  }

  /** Where a line sits in the rows: an entry's caption's row, and past the
      end for any other line. */
  function Rank(rows: seq<Row>, l: Line): nat {
    if l.Entry? then RowOf(rows, l.caption) else |rows|
  }

  /** With one row per caption, the answers box lists each caption at most
      once, every one of them a row's, in the rows' order. */
  lemma {:induction false} EntriesInRowOrder(a: Answers, rows: seq<Row>)
    requires DistinctCaptions(rows)
    ensures forall p :: 0 <= p < |Entries(a, rows)| ==> Rank(rows, Entries(a, rows)[p]) < |rows|
    ensures forall p, q :: 0 <= p < q < |Entries(a, rows)| ==>
      Rank(rows, Entries(a, rows)[p]) < Rank(rows, Entries(a, rows)[q])
  {
    if |rows| > 0 {
      var tail := rows[1..];
      assert DistinctCaptions(tail) by {
        forall i, j | 0 <= i < j < |tail| ensures tail[i].caption != tail[j].caption {
          assert tail[i] == rows[i + 1] && tail[j] == rows[j + 1];
        }
      }
      EntriesInRowOrder(a, tail);
      var head, rest := RowLines(a, rows[0]), Entries(a, tail);
      assert |head| <= 1 && forall p :: 0 <= p < |head| ==> Rank(rows, head[p]) == 0;
      forall p | 0 <= p < |rest| ensures Rank(rows, rest[p]) == 1 + Rank(tail, rest[p]) {
        var k := RowOf(tail, rest[p].caption);
        assert tail[k] == rows[k + 1];
      }
      RanksOfConcat(rows, head, rest);
      assert Entries(a, rows) == head + rest;
    }
  }

  /** A first line of rank 0 before lines of rising rank from 1 on keeps the
      ranks rising. */
  lemma RanksOfConcat(rows: seq<Row>, head: seq<Line>, rest: seq<Line>)
    requires |rows| > 0 && |head| <= 1 && forall p :: 0 <= p < |head| ==> Rank(rows, head[p]) == 0
    requires forall p :: 0 <= p < |rest| ==> 1 <= Rank(rows, rest[p]) < |rows|
    requires forall p, q :: 0 <= p < q < |rest| ==> Rank(rows, rest[p]) < Rank(rows, rest[q])
    ensures forall p :: 0 <= p < |head + rest| ==> Rank(rows, (head + rest)[p]) < |rows|
    ensures forall p, q :: 0 <= p < q < |head + rest| ==> Rank(rows, (head + rest)[p]) < Rank(rows, (head + rest)[q])
  {
    var s := head + rest;
    forall p | 0 <= p < |s| ensures s[p] == if p < |head| then head[p] else rest[p - |head|] {
    }
  }

  /** With one row per caption, the entries under row `i`'s caption are
      exactly what that row shows. */
  lemma EntriesOfRow(a: Answers, rows: seq<Row>, i: int)
    requires DistinctCaptions(rows) && 0 <= i < |rows|
    ensures forall v :: Entry(rows[i].caption, v) in Entries(a, rows) <==> Shows(a, rows[i], v)
  {
    forall v | Entry(rows[i].caption, v) in Entries(a, rows)
      ensures Shows(a, rows[i], v)
    {
      var j :| 0 <= j < |rows| && rows[j].caption == rows[i].caption && Shows(a, rows[j], v);
      assert i == j;
    }
  }

  /** The answers box reads nothing but the rows' keys. */
  lemma {:induction false} EntriesReadOnlyKeys(a1: Answers, a2: Answers, rows: seq<Row>)
    requires forall i :: 0 <= i < |rows| ==> Answer(a1, rows[i].key) == Answer(a2, rows[i].key)
    ensures Entries(a1, rows) == Entries(a2, rows)
  {
    if |rows| > 0 {
      assert forall i :: 0 <= i < |rows| - 1 ==> rows[1..][i] == rows[i + 1];
      EntriesReadOnlyKeys(a1, a2, rows[1..]);
      assert RowLines(a1, rows[0]) == RowLines(a2, rows[0]);
    }
  }

  // ---------------------------------------------------------------------------
  // The two templates
  // ---------------------------------------------------------------------------

  const DeclarationHeading := "<h3>Article I \U{2014} Declaration</h3>"
  const GovernanceHeading := "<h3>Article I \U{2014} Governance</h3>"
  const GovernanceClause := Slot("<p>", DefaultJurisdictionText, "</p>")

  const RevocableRows: seq<Row> := [
    Row(Grantor, "grantorName", Always("")),
    Row(Trustee, "trusteeName", Always("")),
    Row(PrimaryBeneficiary, "beneficiaryName", Always("")),
    Row(DateEstablished, "establishedDate", Always("")),
    Row(GoverningLaw, "governingLaw", Always("Common Law")),
    Row(SuccessorTrustee, "successorTrustee", WhenPresent),
    Row(SuccessorBeneficiary, "successorBeneficiary", WhenPresent) ]

  const DeclarationArticle: seq<Line> := [
    Fixed(DeclarationHeading),
    Fixed(DeclarationText) ]

  /** A document with a two-line article, counted from its end: the box, its
      closing tag, then the article's two lines before the six-line stamp. */
  lemma TwoLineArticle(doc: seq<Line>, body: seq<Line>, article: seq<Line>)
    requires |article| == 2 && |doc| == |body| + 17
    requires doc[8..8 + |body|] == body && doc[8 + |body|] == Fixed("</div>")
    requires doc[9 + |body|..11 + |body|] == article
    ensures doc[8..|doc| - 9] == body && doc[|doc| - 9] == Fixed("</div>")
    ensures doc[|doc| - 8] == article[0] && doc[|doc| - 7] == article[1]
  {
    assert doc[|doc| - 8] == doc[9 + |body|..11 + |body|][0];
    assert doc[|doc| - 7] == doc[9 + |body|..11 + |body|][1];
  }

  /** With an article that holds no entries, a document's entries are its body's. */
  lemma DocumentEntries(title: string, meta: Meta, generatedAt: string, body: seq<Line>, article: seq<Line>)
    requires NoEntries(article)
    ensures forall c, v :: Entry(c, v) in Document(title, meta, generatedAt, body, article) <==> Entry(c, v) in body
  {
  }

  /** The closing articles are fixed markup: neither holds an entry, and the
      governance article holds its heading and clause. */
  lemma ArticlesHoldNoEntries()
    ensures NoEntries(DeclarationArticle) && NoEntries(GovernanceArticle)
    ensures Fixed(GovernanceHeading) in GovernanceArticle && GovernanceClause in GovernanceArticle
  {
  }

  /** The revocable template as its text reads: the first four answers
      always get a line (empty when missing), governing law falls back to
      "Common Law", and each successor line appears only when that answer is
      non-empty; no other caption occurs. */
  predicate RevocableShows(a: Answers, c: Caption, v: string) {
    match c
    case Grantor => v == Answer(a, "grantorName")
    case Trustee => v == Answer(a, "trusteeName")
    case PrimaryBeneficiary => v == Answer(a, "beneficiaryName")
    case DateEstablished => v == Answer(a, "establishedDate")
    case GoverningLaw => v == (if Present(a, "governingLaw") then a["governingLaw"] else "Common Law")
    case SuccessorTrustee => Present(a, "successorTrustee") && v == a["successorTrustee"]
    case SuccessorBeneficiary => Present(a, "successorBeneficiary") && v == a["successorBeneficiary"]
    case _ => false
  }

  /** One caption and value: the entry is there exactly when the template text shows it. */
  lemma RevocableEntry(a: Answers, c: Caption, v: string)
    ensures Entry(c, v) in Entries(a, RevocableRows) <==> RevocableShows(a, c, v)
  {
    RowCaptions();
    RevocableEntryIn(a, RevocableRows, c, v);
  }

  /** The same, for any table laid out as the template's, so that the
      table's literal is not unfolded. */
  lemma RevocableEntryIn(a: Answers, rows: seq<Row>, c: Caption, v: string)
    requires |rows| == 7 && DistinctCaptions(rows)
    requires rows[0] == Row(Grantor, "grantorName", Always(""))
    requires rows[1] == Row(Trustee, "trusteeName", Always(""))
    requires rows[2] == Row(PrimaryBeneficiary, "beneficiaryName", Always(""))
    requires rows[3] == Row(DateEstablished, "establishedDate", Always(""))
    requires rows[4] == Row(GoverningLaw, "governingLaw", Always("Common Law"))
    requires rows[5] == Row(SuccessorTrustee, "successorTrustee", WhenPresent)
    requires rows[6] == Row(SuccessorBeneficiary, "successorBeneficiary", WhenPresent)
    ensures Entry(c, v) in Entries(a, rows) <==> RevocableShows(a, c, v)
  {
    match c {
      case Grantor => EntriesOfRow(a, rows, 0);
      case Trustee => EntriesOfRow(a, rows, 1);
      case PrimaryBeneficiary => EntriesOfRow(a, rows, 2);
      case DateEstablished => EntriesOfRow(a, rows, 3);
      case GoverningLaw => EntriesOfRow(a, rows, 4);
      case SuccessorTrustee => EntriesOfRow(a, rows, 5);
      case SuccessorBeneficiary => EntriesOfRow(a, rows, 6);
      case Settlor => NoRowFor(a, rows, Settlor);
      case Beneficiaries => NoRowFor(a, rows, Beneficiaries);
      case TrustName => NoRowFor(a, rows, TrustName);
      case EffectiveDate => NoRowFor(a, rows, EffectiveDate);
      case MailingAddress => NoRowFor(a, rows, MailingAddress);
      case JurisdictionStatement => NoRowFor(a, rows, JurisdictionStatement);
    }
  }

  /** The revocable rows produce exactly the entries the template text shows. */
  lemma RevocableEntries(a: Answers)
    ensures forall c, v :: Entry(c, v) in Entries(a, RevocableRows) <==> RevocableShows(a, c, v)
  {
    forall c, v ensures Entry(c, v) in Entries(a, RevocableRows) <==> RevocableShows(a, c, v) {
      RevocableEntry(a, c, v);
    }
  }

  /** The document holds exactly the entries the revocable template text shows. */
  ghost predicate RevocableContent(doc: seq<Line>, a: Answers) {
    forall c, v :: Entry(c, v) in doc <==> RevocableShows(a, c, v)
  }

  /** The revocable living trust: stamped, and holding exactly the entries
      the template text shows. */
  function Revocable(a: Answers, meta: Meta, generatedAt: string): (doc: seq<Line>)
    ensures Stamped(doc, meta, generatedAt)
    ensures RevocableContent(doc, a)
    ensures |doc| >= 17 && doc[8..|doc| - 9] == Entries(a, RevocableRows) && doc[|doc| - 9] == Fixed("</div>")
    ensures doc[|doc| - 8] == Fixed(DeclarationHeading) && doc[|doc| - 7] == Fixed(DeclarationText)
    ensures doc[5] == Slot(TitleOpen, "Revocable Living Trust (Draft)", "</h2>")
  {
    var title, body := "Revocable Living Trust (Draft)", Entries(a, RevocableRows);
    ArticlesHoldNoEntries();
    RevocableEntries(a);
    DocumentEntries(title, meta, generatedAt, body, DeclarationArticle);
    var doc := Document(title, meta, generatedAt, body, DeclarationArticle);
    TwoLineArticle(doc, body, DeclarationArticle);
    doc
  }

  const CommonLawRows: seq<Row> := [
    Row(Settlor, "settlor", Always("")),
    Row(Trustee, "trustee", Always("")),
    Row(Beneficiaries, "beneficiaries", Always("")),
    Row(TrustName, "trustName", Always("")),
    Row(EffectiveDate, "date", Always("")),
    Row(MailingAddress, "mailingAddress", WhenPresent),
    Row(JurisdictionStatement, "jurisdiction", Always("")) ]

  const GovernanceArticle: seq<Line> := [Fixed(GovernanceHeading), GovernanceClause]

  /** A caption no row carries has no entries. */
  lemma NoRowFor(a: Answers, rows: seq<Row>, c: Caption)
    requires forall i :: 0 <= i < |rows| ==> rows[i].caption != c
    ensures forall v :: Entry(c, v) !in Entries(a, rows)
  {
  }

  /** Each template has one row per caption. */
  lemma RowCaptions()
    ensures DistinctCaptions(RevocableRows) && DistinctCaptions(CommonLawRows)
  {
  }

  /** The common-law template as its text reads: the mailing address line
      appears only when that answer is non-empty, every other line always
      appears (empty when missing), the jurisdiction statement among them;
      no other caption occurs. */
  predicate CommonLawShows(a: Answers, c: Caption, v: string) {
    match c
    case Settlor => v == Answer(a, "settlor")
    case Trustee => v == Answer(a, "trustee")
    case Beneficiaries => v == Answer(a, "beneficiaries")
    case TrustName => v == Answer(a, "trustName")
    case EffectiveDate => v == Answer(a, "date")
    case MailingAddress => Present(a, "mailingAddress") && v == a["mailingAddress"]
    case JurisdictionStatement => v == Answer(a, "jurisdiction")
    case _ => false
  }

  /** One caption and value: the entry is there exactly when the template text shows it. */
  lemma CommonLawEntry(a: Answers, c: Caption, v: string)
    ensures Entry(c, v) in Entries(a, CommonLawRows) <==> CommonLawShows(a, c, v)
  {
    RowCaptions();
    CommonLawEntryIn(a, CommonLawRows, c, v);
  }

  /** The same, for any table laid out as the template's, so that the
      table's literal is not unfolded. */
  lemma CommonLawEntryIn(a: Answers, rows: seq<Row>, c: Caption, v: string)
    requires |rows| == 7 && DistinctCaptions(rows)
    requires rows[0] == Row(Settlor, "settlor", Always(""))
    requires rows[1] == Row(Trustee, "trustee", Always(""))
    requires rows[2] == Row(Beneficiaries, "beneficiaries", Always(""))
    requires rows[3] == Row(TrustName, "trustName", Always(""))
    requires rows[4] == Row(EffectiveDate, "date", Always(""))
    requires rows[5] == Row(MailingAddress, "mailingAddress", WhenPresent)
    requires rows[6] == Row(JurisdictionStatement, "jurisdiction", Always(""))
    ensures Entry(c, v) in Entries(a, rows) <==> CommonLawShows(a, c, v)
  {
    match c {
      case Settlor => EntriesOfRow(a, rows, 0);
      case Trustee => EntriesOfRow(a, rows, 1);
      case Beneficiaries => EntriesOfRow(a, rows, 2);
      case TrustName => EntriesOfRow(a, rows, 3);
      case EffectiveDate => EntriesOfRow(a, rows, 4);
      case MailingAddress => EntriesOfRow(a, rows, 5);
      case JurisdictionStatement => EntriesOfRow(a, rows, 6);
      case Grantor => NoRowFor(a, rows, Grantor);
      case PrimaryBeneficiary => NoRowFor(a, rows, PrimaryBeneficiary);
      case DateEstablished => NoRowFor(a, rows, DateEstablished);
      case GoverningLaw => NoRowFor(a, rows, GoverningLaw);
      case SuccessorTrustee => NoRowFor(a, rows, SuccessorTrustee);
      case SuccessorBeneficiary => NoRowFor(a, rows, SuccessorBeneficiary);
    }
  }

  /** The common-law rows produce exactly the entries the template text shows. */
  lemma CommonLawEntries(a: Answers)
    ensures forall c, v :: Entry(c, v) in Entries(a, CommonLawRows) <==> CommonLawShows(a, c, v)
  {
    forall c, v ensures Entry(c, v) in Entries(a, CommonLawRows) <==> CommonLawShows(a, c, v) {
      CommonLawEntry(a, c, v);
    }
  }

  /** The document holds exactly the entries the common-law template text shows. */
  ghost predicate CommonLawContent(doc: seq<Line>, a: Answers) {
    forall c, v :: Entry(c, v) in doc <==> CommonLawShows(a, c, v)
  }

  /** The private common-law trust: stamped, holding exactly the entries the
      template text shows, and closing with the governance article, whose
      clause is the fixed default text and never the user's jurisdiction
      answer. */
  function CommonLaw(a: Answers, meta: Meta, generatedAt: string): (doc: seq<Line>)
    ensures Stamped(doc, meta, generatedAt)
    ensures CommonLawContent(doc, a)
    ensures Fixed(GovernanceHeading) in doc && GovernanceClause in doc
    ensures |doc| >= 17 && doc[8..|doc| - 9] == Entries(a, CommonLawRows) && doc[|doc| - 9] == Fixed("</div>")
    ensures doc[|doc| - 8] == Fixed(GovernanceHeading) && doc[|doc| - 7] == GovernanceClause
    ensures doc[5] == Slot(TitleOpen, "Private Trust (Common Law) \U{2014} Draft", "</h2>")
  {
    var title, body := "Private Trust (Common Law) \U{2014} Draft", Entries(a, CommonLawRows);
    ArticlesHoldNoEntries();
    CommonLawEntries(a);
    DocumentEntries(title, meta, generatedAt, body, GovernanceArticle);
    var doc := Document(title, meta, generatedAt, body, GovernanceArticle);
    TwoLineArticle(doc, body, GovernanceArticle);
    doc
  }

  /** In both templates the answers box writes each caption at most once, in
      the rows' order. */
  lemma TemplateBoxesInRowOrder(a: Answers)
    ensures forall p, q :: 0 <= p < q < |Entries(a, RevocableRows)| ==>
      Rank(RevocableRows, Entries(a, RevocableRows)[p]) < Rank(RevocableRows, Entries(a, RevocableRows)[q])
    ensures forall p, q :: 0 <= p < q < |Entries(a, CommonLawRows)| ==>
      Rank(CommonLawRows, Entries(a, CommonLawRows)[p]) < Rank(CommonLawRows, Entries(a, CommonLawRows)[q])
  {
    RowCaptions();
    EntriesInRowOrder(a, RevocableRows);
    EntriesInRowOrder(a, CommonLawRows);
  }

  /** Each template's answer lines read the fields of its schema type, one
      line per field, in schema order; and the governing-law fallback is that
      field's schema default. */
  lemma TemplatesFollowSchema()
    ensures |RevocableRows| == |RevocableType.fields|
    ensures forall i :: 0 <= i < |RevocableRows| ==> RevocableRows[i].key == RevocableType.fields[i].id
    ensures |CommonLawRows| == |CommonLawType.fields|
    ensures forall i :: 0 <= i < |CommonLawRows| ==> CommonLawRows[i].key == CommonLawType.fields[i].id
    ensures RevocableRows[4].rule == Always(RevocableType.fields[4].defaultValue.value)
  {
  }

  // ---------------------------------------------------------------------------
  // From lines to markup
  // ---------------------------------------------------------------------------

  /** An interpolated value occurs verbatim in the markup, right after its
      opening text. */
  lemma SlotInMarkup(doc: seq<Line>, i: int, before: string, value: string, after: string)
    requires 0 <= i < |doc| && doc[i] == Slot(before, value, after)
    ensures Contains(Markup(doc), value)
    ensures Contains(Markup(doc), before + value)
  {
    LinesInMarkup(doc, i);
    PiecesWithin(Markup(doc), LineMarkup(doc[i]), before, value, after);
  }

  /** An entry's whole line, and so its answer, occurs verbatim in the markup. */
  lemma EntryInMarkup(doc: seq<Line>, caption: Caption, value: string)
    requires Entry(caption, value) in doc
    ensures Contains(Markup(doc), "<p><strong>" + CaptionText(caption) + ":</strong> " + value + "</p>")
    ensures Contains(Markup(doc), value)
  {
    var i :| 0 <= i < |doc| && doc[i] == Entry(caption, value);
    JoinLinesContains(Rendered(doc), i);
    ContainsInfix("<p><strong>" + CaptionText(caption) + ":</strong> ", value, "</p>");
    ContainsTrans(Markup(doc), LineMarkup(doc[i]), value);
  }

  /** A stamped document's markup carries the identifier, owner, banner,
      disclaimer, timestamp and fingerprint verbatim, the identifier once in
      the header and once in the stamp. */
  lemma StampedMarkup(doc: seq<Line>, meta: Meta, generatedAt: string)
    requires Stamped(doc, meta, generatedAt)
    ensures Contains(Markup(doc), meta.id)
    ensures Contains(Markup(doc), meta.owner)
    ensures Contains(Markup(doc), meta.conf)
    ensures Contains(Markup(doc), meta.disclaimer)
    ensures Contains(Markup(doc), meta.fingerprint)
    ensures Contains(Markup(doc), generatedAt)
    ensures Contains(Markup(doc), IdentifierOpen + meta.id)
    ensures Contains(Markup(doc), StampOpen + meta.id)
  {
    HeaderInMarkup(doc, meta);
    StampInMarkup(doc, meta, generatedAt);
  }

  /** The header's and the title's metadata lines in the HTML. */
  lemma HeaderInMarkup(doc: seq<Line>, meta: Meta)
    requires |doc| >= 8
    requires doc[1] == Slot(IdentifierOpen, meta.id, "</strong></div>")
    requires doc[2] == Slot("<div>Owner: ", meta.owner, "</div>")
    requires doc[3] == Slot("<div>", meta.conf, "</div>")
    requires doc[6] == Slot("<p><em>", meta.disclaimer, "</em></p>")
    ensures Contains(Markup(doc), meta.id) && Contains(Markup(doc), IdentifierOpen + meta.id)
    ensures Contains(Markup(doc), meta.owner) && Contains(Markup(doc), meta.conf)
    ensures Contains(Markup(doc), meta.disclaimer)
  {
    SlotInMarkup(doc, 1, IdentifierOpen, meta.id, "</strong></div>");
    SlotInMarkup(doc, 2, "<div>Owner: ", meta.owner, "</div>");
    SlotInMarkup(doc, 3, "<div>", meta.conf, "</div>");
    SlotInMarkup(doc, 6, "<p><em>", meta.disclaimer, "</em></p>");
  }

  /** The closing stamp's lines in the HTML. */
  lemma StampInMarkup(doc: seq<Line>, meta: Meta, generatedAt: string)
    requires |doc| >= 8
    requires doc[|doc| - 4] == Slot("<div>Generated: ", generatedAt, "</div>")
    requires doc[|doc| - 3] == Slot(FingerprintOpen, meta.fingerprint, "</div>")
    requires doc[|doc| - 2] == Slot(StampOpen, meta.id, "</div>")
    ensures Contains(Markup(doc), generatedAt) && Contains(Markup(doc), meta.fingerprint)
    ensures Contains(Markup(doc), StampOpen + meta.id)
  {
    SlotInMarkup(doc, |doc| - 4, "<div>Generated: ", generatedAt, "</div>");
    SlotInMarkup(doc, |doc| - 3, FingerprintOpen, meta.fingerprint, "</div>");
    SlotInMarkup(doc, |doc| - 2, StampOpen, meta.id, "</div>");
  }

  /** Whatever the answers, the common-law markup carries the default
      jurisdiction text. */
  lemma CommonLawGovernanceText(a: Answers, meta: Meta, generatedAt: string)
    ensures Contains(Markup(CommonLaw(a, meta, generatedAt)), DefaultJurisdictionText)
  {
    var doc := CommonLaw(a, meta, generatedAt);
    var i :| 0 <= i < |doc| && doc[i] == GovernanceClause;
    SlotInMarkup(doc, i, "<p>", DefaultJurisdictionText, "</p>");
  }

  /** Answers agree on a set of keys when each key reads the same in both. */
  predicate AgreeOn(a1: Answers, a2: Answers, keys: set<string>) {
    forall k :: k in keys ==> Answer(a1, k) == Answer(a2, k)
  }

  /** Answers that agree on a type's fields agree on every key its rows read. */
  lemma AgreeOnRows(a1: Answers, a2: Answers, fields: seq<FieldSpec>, rows: seq<Row>)
    requires |rows| == |fields| && forall i :: 0 <= i < |rows| ==> rows[i].key == fields[i].id
    requires AgreeOn(a1, a2, FieldIds(fields))
    ensures forall i :: 0 <= i < |rows| ==> Answer(a1, rows[i].key) == Answer(a2, rows[i].key)
  {
    forall i | 0 <= i < |rows| ensures Answer(a1, rows[i].key) == Answer(a2, rows[i].key) {
      assert fields[i].id in FieldIds(fields);
    }
  }

  /** The revocable template reads nothing but the revocable type's fields. */
  lemma RevocableReadsOnlyItsFields(a1: Answers, a2: Answers, meta: Meta, generatedAt: string)
    requires AgreeOn(a1, a2, FieldIds(RevocableType.fields))
    ensures Revocable(a1, meta, generatedAt) == Revocable(a2, meta, generatedAt)
  {
    TemplatesFollowSchema();
    AgreeOnRows(a1, a2, RevocableType.fields, RevocableRows);
    EntriesReadOnlyKeys(a1, a2, RevocableRows);
  }

  /** The common-law template reads nothing but the common-law type's fields. */
  lemma CommonLawReadsOnlyItsFields(a1: Answers, a2: Answers, meta: Meta, generatedAt: string)
    requires AgreeOn(a1, a2, FieldIds(CommonLawType.fields))
    ensures CommonLaw(a1, meta, generatedAt) == CommonLaw(a2, meta, generatedAt)
  {
    TemplatesFollowSchema();
    AgreeOnRows(a1, a2, CommonLawType.fields, CommonLawRows);
    EntriesReadOnlyKeys(a1, a2, CommonLawRows);
  }
}

=== FILE: text.dfy ===
/** String facts shared by the renderers: substring containment, JavaScript's
    `String.prototype.trim`, and joining rendered lines into one document. */
module Text {

  predicate StartsWith(s: string, p: string) {
    |p| <= |s| && s[..|p|] == p
  }

  lemma StartsWithConcat(p: string, q: string)
    ensures StartsWith(p + q, p)
  {
    assert (p + q)[..|p|] == p;
  }

  /** `t` is the tail of `s`. */
  predicate EndsWith(s: string, t: string) {
    |t| <= |s| && s[|s| - |t|..] == t
  }

  /** `t` occurs in `s` as a contiguous block of characters. */
  predicate Contains(s: string, t: string) {
    exists k :: 0 <= k <= |s| && StartsWith(s[k..], t)
  }

  /** What a string starts with or contains, it still does with more appended. */
  lemma PrefixExtends(s: string, rest: string, p: string, t: string)
    ensures StartsWith(s, p) ==> StartsWith(s + rest, p)
    ensures Contains(s, t) ==> Contains(s + rest, t)
  {
    if StartsWith(s, p) {
      assert (s + rest)[..|p|] == s[..|p|];
    }
    if Contains(s, t) {
      var k :| 0 <= k <= |s| && StartsWith(s[k..], t);
      assert (s + rest)[k..][..|t|] == s[k..][..|t|];
      assert StartsWith((s + rest)[k..], t);
    }
  }

  /** A string occurs in any string built around it. */
  lemma ContainsInfix(p: string, t: string, q: string)
    ensures Contains(p + t + q, t)
  {
    var s := p + t + q;
    assert s[|p|..][..|t|] == t;
    assert StartsWith(s[|p|..], t);
  }

  /** A text holding `before + value + after` holds `value`, and holds it
      right after `before`. */
  lemma PiecesWithin(s: string, line: string, before: string, value: string, after: string)
    requires Contains(s, line) && line == before + value + after
    ensures Contains(s, value) && Contains(s, before + value)
  {
    assert Contains(line, value) by { ContainsInfix(before, value, after); }
    assert Contains(line, before + value) by {
      ContainsInfix("", before + value, after);
      assert "" + (before + value) + after == line;
    }
    ContainsTrans(s, line, value);
    ContainsTrans(s, line, before + value);
  }

  /** Containment is transitive. */
  lemma ContainsTrans(s: string, t: string, u: string)
    requires Contains(s, t) && Contains(t, u)
    ensures Contains(s, u)
  {
    var i :| 0 <= i <= |s| && StartsWith(s[i..], t);
    var j :| 0 <= j <= |t| && StartsWith(t[j..], u);
    forall m | 0 <= m < |u| ensures s[i + j + m] == u[m] {
      assert u[m] == t[j..][..|u|][m] == t[j + m];
      assert t[j + m] == s[i..][..|t|][j + m] == s[i + j + m];
    }
    assert s[i + j..][..|u|] == u;
  }

  /** What occurs in a part occurs in anything built around that part. */
  lemma ContainsWithin(p: string, x: string, q: string, t: string)
    requires Contains(x, t)
    ensures Contains(p + x + q, t)
  {
    ContainsInfix(p, x, q);
    ContainsTrans(p + x + q, x, t);
  }

  // ---------------------------------------------------------------------------
  // Markup assembled from pieces
  // ---------------------------------------------------------------------------

  /** The pieces written one after another. */
  function Concat(parts: seq<string>): string {
    if |parts| == 0 then "" else parts[0] + Concat(parts[1..])
  }

  /** Every piece occurs verbatim in the whole. */
  lemma {:induction false} ConcatContainsPiece(parts: seq<string>, k: int)
    requires 0 <= k < |parts|
    ensures Contains(Concat(parts), parts[k])
  {
    if k == 0 {
      ContainsInfix("", parts[0], Concat(parts[1..]));
      assert "" + parts[0] + Concat(parts[1..]) == Concat(parts);
    } else {
      ConcatContainsPiece(parts[1..], k - 1);
      assert parts[1..][k - 1] == parts[k];
      ContainsWithin(parts[0], Concat(parts[1..]), "", parts[k]);
      assert parts[0] + Concat(parts[1..]) + "" == Concat(parts);
    }
  }

  /** Two neighbouring pieces occur together, in order, in the whole. */
  lemma {:induction false} ConcatContainsPair(parts: seq<string>, k: int)
    requires 0 <= k < |parts| - 1
    ensures Contains(Concat(parts), parts[k] + parts[k + 1])
  {
    if k == 0 {
      assert Concat(parts[1..]) == parts[1] + Concat(parts[2..]) by { assert parts[1..][1..] == parts[2..]; }
      ContainsInfix("", parts[0] + parts[1], Concat(parts[2..]));
      assert "" + (parts[0] + parts[1]) + Concat(parts[2..]) == Concat(parts);
    } else {
      ConcatContainsPair(parts[1..], k - 1);
      assert parts[1..][k - 1] == parts[k] && parts[1..][k] == parts[k + 1];
      ContainsWithin(parts[0], Concat(parts[1..]), "", parts[k] + parts[k + 1]);
      assert parts[0] + Concat(parts[1..]) + "" == Concat(parts);
    }
  }

  // ---------------------------------------------------------------------------
  // Joining lines
  // ---------------------------------------------------------------------------

  /** The lines, each followed by a newline, in order. */
  function JoinLines(lines: seq<string>): (r: string)
    ensures r == "" <==> |lines| == 0
    ensures |lines| > 0 ==> StartsWith(r, lines[0])
  {
    if |lines| == 0 then "" else
      var rest := JoinLines(lines[1..]);
      assert (lines[0] + "\n" + rest)[..|lines[0]|] == lines[0];
      lines[0] + "\n" + rest
  }

  /** Every line occurs verbatim in the joined text. */
  lemma {:induction false} JoinLinesContains(lines: seq<string>, i: int)
    requires 0 <= i < |lines|
    ensures Contains(JoinLines(lines), lines[i])
    decreases |lines|
  {
    if i == 0 {
      ContainsInfix("", lines[0], "\n" + JoinLines(lines[1..]));
      assert "" + lines[0] + ("\n" + JoinLines(lines[1..])) == JoinLines(lines);
    } else {
      JoinLinesContains(lines[1..], i - 1);
      assert lines[1..][i - 1] == lines[i];
      ContainsWithin(lines[0] + "\n", JoinLines(lines[1..]), "", lines[i]);
      assert lines[0] + "\n" + JoinLines(lines[1..]) + "" == JoinLines(lines);
    }
  }

  // ---------------------------------------------------------------------------
  // Padding
  // ---------------------------------------------------------------------------

  /** `s.padStart(width, [fill])`: `s` preceded by as many `fill`s as it takes
      to reach `width` characters; a longer `s` is left alone. */
  function PadStart(s: string, width: nat, fill: char): (r: string)
    ensures |s| >= width ==> r == s
    ensures |s| < width ==> |r| == width
    ensures |r| >= |s| && r[|r| - |s|..] == s
    ensures forall k :: 0 <= k < |r| - |s| ==> r[k] == fill
  {
    if |s| >= width then s else seq(width - |s|, _ => fill) + s
  }

  // ---------------------------------------------------------------------------
  // Trimming
  // ---------------------------------------------------------------------------

  /** The white-space characters `trim` strips: the ASCII ones, the no-break
      space and the byte-order mark (the rarer Unicode spaces are not modelled). */
  predicate IsSpace(c: char) {
    c == ' ' || c == '\t' || c == '\n' || c == '\r' || c == '\U{000B}' || c == '\U{000C}'
    || c == '\U{00A0}' || c == '\U{FEFF}'
  }

  predicate AllSpace(s: string) {
    forall k :: 0 <= k < |s| ==> IsSpace(s[k])
  }

  /** The first index at or after `i` that is not white space (`|s|` if none). */
  function SpaceRunEnd(s: string, i: nat): (n: nat)
    requires i <= |s|
    ensures i <= n <= |s|
    ensures forall k :: i <= k < n ==> IsSpace(s[k])
    ensures n < |s| ==> !IsSpace(s[n])
    decreases |s| - i
  {
    if i < |s| && IsSpace(s[i]) then SpaceRunEnd(s, i + 1) else i
  }

  /** The start of the run of white space ending at `j`, going no further
      back than `lo`. */
  function SpaceRunStart(s: string, lo: nat, j: nat): (m: nat)
    requires lo <= j <= |s|
    ensures lo <= m <= j
    ensures forall k :: m <= k < j ==> IsSpace(s[k])
    ensures lo < m ==> !IsSpace(s[m - 1])
    decreases j - lo
  {
    if lo < j && IsSpace(s[j - 1]) then SpaceRunStart(s, lo, j - 1) else j
  }

  /** JavaScript's `trim`: the middle part of `s` that neither starts nor ends
      with white space, everything cut off on either side being white space. */
  function Trim(s: string): (r: string)
    ensures exists i, j :: 0 <= i <= j <= |s| && r == s[i..j] && AllSpace(s[..i]) && AllSpace(s[j..])
    ensures r == "" || (!IsSpace(r[0]) && !IsSpace(r[|r| - 1]))
    ensures r == "" <==> AllSpace(s)
  {
    var i := SpaceRunEnd(s, 0);
    var j := SpaceRunStart(s, i, |s|);
    assert AllSpace(s[..i]) && AllSpace(s[j..]);
    if i == j then
      assert AllSpace(s);
      ""
    else
      assert s[i..j][0] == s[i] && s[i..j][j - i - 1] == s[j - 1];
      s[i..j]
  }
}

=== FILE: wrappers.dfy ===
/** Optional values: the model's stand-in for JavaScript's `undefined`. */
module Wrappers {

  datatype Option<+T> = None | Some(value: T) {

    /** The wrapped value, or `fallback` when there is none. */
    function GetOr(fallback: T): (r: T)
      ensures Some? ==> r == value
      ensures None? ==> r == fallback
    {
      match this
      case Some(v) => v
      case None => fallback
    }
  }
}
